=== FILE: README.md ===
# catch_stock_news in Dafny

This is a model of the news alert service catch_stock_news.

The service polls the real-time news listing of Naver Securities. It keeps the items whose titles contain one of the user's enabled keywords. It drops items already sent, by URL or by a similar title. It records an alert for each item that is left and hands that alert to a Slack notifier during notification hours. The web layer lets the user add, delete and toggle keywords.

The model covers:

- **Scraper logic.** This is `wrappers.dfy`, `strings.dfy`, `sequences.dfy`, `url.dfy` and `scraper.dfy`.
  - Canonicalising redirect links into direct article links.
  - The per-candidate filter of the primary parser, including the allow-list of news sources.
  - The fallback selectors on page 1.
  - Pagination, with first-seen URL deduplication and the stop rule.
  - The case-insensitive keyword matcher.
  - HTML extraction is an input: each page arrives as the candidate records the parser would have seen. Fetching is a function from page number to a page or a transport failure.
- **The store** (`database.py`), in `database.dfy`.
  - It is an immutable record with three tables: keywords, the sent-news ledger and alerts.
  - Each database function is a pure state transition returning its result and the new store.
  - The predicate `Valid` collects what the schema guarantees: AUTOINCREMENT ids, the UNIQUE keyword text and the unique URL index. Every transition is proved to keep it.
  - The title similarity check uses `Similarity.Ratio`, which `similarity.dfy` pins to difflib's `SequenceMatcher.ratio`: `2*M/T` over the matching blocks, where a longest match takes the lowest start in `a`, then in `b`.
- **The notification gate and one scheduler run** (`services/news_checker.py`), in `news_checker.dfy`.
  - The gate is a pure function of the settings and a clock reading.
  - A run threads the store through the matched items.
  - Any exception inside the run's `try` block is an oracle `fails: Step -> bool`. The oracle says which database call raises.
  - The run reports the error instead of raising it, and the effects of earlier items persist.
- **Configuration** (`config.py`), in `config.dfy`: a pure function from an environment map to settings.
- **The keyword-management decisions of the web layer** (`web/routes.py`), in `routes.dfy`: status codes, plus the counts and window text of `/status`.

Source paths below are relative to the repository root.

## Model

| member | source | states |
|---|---|---|
| Url.Canonicalize | catch_stock_news/scraper.py:14-34 | A URL whose path lacks `news_read.naver` is returned unchanged. Any URL the function changes was a redirect link whose query has non-blank `article_id` and `office_id`, and it becomes the direct article link built from them. |
| Url.CanonicalizeRedirect | catch_stock_news/scraper.py:27-32 | Conversely, a redirect link with both ids present becomes exactly `https://n.news.naver.com/mnews/article/<office>/<article>`. |
| Url.NoAmpersandUnchanged | catch_stock_news/scraper.py:27-34 | A URL with no `&` cannot carry both ids, so it is never rewritten. |
| Url.CanonicalizeIdempotent | catch_stock_news/scraper.py:14-34 | Canonicalising a canonical URL changes nothing, given that ids are not percent-decoded (see below). |
| Url.CanonicalizeEmpty | catch_stock_news/scraper.py:22-25 | The empty URL is returned unchanged. |
| Url.DirectUrlIsHttp | catch_stock_news/scraper.py:32 | Direct article links are absolute http links. |
| Url.SplitUrl | catch_stock_news/scraper.py:22 | The path and query that `urlparse` separates are drawn from the URL, and the query stops before any fragment. |
| Url.QueryOf | catch_stock_news/scraper.py:27 | `parse_qs` keeps only parameters with non-blank values, none containing `&`. A URL without `&` has at most one parameter. |
| Url.Lookup | catch_stock_news/scraper.py:28-29 | A found value belongs to a parameter of that name, and a missing name is absent from every parameter. |
| Scraper.Absolute | catch_stock_news/scraper.py:51-52 | Hrefs not starting with `http` get `https://finance.naver.com` in front. Others are kept, so the result always starts with `http`. |
| Scraper.CanonicalizeKeepsHttp | catch_stock_news/scraper.py:50-55 | Canonicalisation keeps an absolute http link absolute. |
| Scraper.ItemUrl | catch_stock_news/scraper.py:50-55 | Every stored item URL starts with `http`. |
| Scraper.ParseCandidate | catch_stock_news/scraper.py:43-81 | A candidate is kept iff it has a title, an href and an allowed source. With a non-empty allow-list and a non-empty source, it is kept iff some allowed name is a substring of the source. A kept item copies the title, time and source, and its URL is the absolute, canonical href. |
| Scraper.ParsePrimary | catch_stock_news/scraper.py:37-83 | Every parsed item has a title, an http URL and an allowed source. There are never more items than candidates. |
| Scraper.ParsePrimaryMembers | catch_stock_news/scraper.py:43-83 | The parse holds exactly the items that kept candidates yield. |
| Scraper.ParsePrimaryAppend | catch_stock_news/scraper.py:43-83 | Parsing works candidate by candidate and keeps document order. |
| Scraper.FallbackItems | catch_stock_news/scraper.py:154-170 | A selector's items are exactly its links with a title longer than 5 characters and an href. They carry no time or source, and their URLs are absolute. |
| Scraper.ParseFallback | catch_stock_news/scraper.py:141-175 | A non-empty fallback result is the whole item list of the first selector that yields any item. The result is empty iff no selector yields one. No allow-list is applied. |
| Scraper.ParsePage | catch_stock_news/scraper.py:113-117 | The fallback replaces the primary parse only on page 1 and only when the primary parse is empty. |
| Scraper.ItemsUpTo | catch_stock_news/scraper.py:106-123 | Every accumulated item comes from some fetched page up to that point. |
| Scraper.LastPage | catch_stock_news/scraper.py:106-127 | Pagination continues past a page only if the page yielded items. It stops at the first empty page or at `max_pages`. |
| Scraper.Dedup | catch_stock_news/scraper.py:119-123 | The deduplicated batch keeps the same set of URLs, pairwise distinct, and takes every item from the batch. |
| Scraper.DedupFirstSeen | catch_stock_news/scraper.py:119-123 | Each kept item is the first occurrence of its URL, and the kept items appear in the order their URLs were first seen. |
| Scraper.Paginate | catch_stock_news/scraper.py:102-138 | Between 1 and `max_pages` pages are requested. Every page before the last yielded items. A success is the first-seen deduplication of all items up to the last page. A failed request aborts with that page's error and no partial result. `max_pages < 1` is an error with no request made, because `page` is unbound at line 129. |
| Scraper.AppendUnseen | catch_stock_news/scraper.py:120-123 | The loop with a seen-set computes the same list and URL set as first-seen deduplication. |
| Scraper.PaginateLoop | catch_stock_news/scraper.py:102-138 | The imperative page loop computes exactly the outcome of `Paginate`. |
| Scraper.HitsOf | catch_stock_news/scraper.py:187-190 | The matched keywords are exactly the keywords whose lower-case form occurs in the lower-cased title. |
| Scraper.HitsOfAppend | catch_stock_news/scraper.py:188-190 | Hits are listed in keyword order. |
| Scraper.FindMatchingNews | catch_stock_news/scraper.py:178-201 | Every output has a non-empty keyword list and is an input item annotated with its hits. Every input item with a hit is in the output. |
| Scraper.FindMatchingNewsAppend | catch_stock_news/scraper.py:186-199 | Matching works item by item and keeps input order. |
| Scraper.KeywordHitsCaseInsensitive | catch_stock_news/scraper.py:189 | Lower-casing the keyword or the title does not change whether it hits. |
| Strings.Strip | catch_stock_news/config.py:13 | `strip` removes exactly the leading and trailing whitespace. The result neither starts nor ends with whitespace. |
| Strings.StripIdempotent | catch_stock_news/web/routes.py:39 | Stripping twice is stripping once, so `add_keyword` re-stripping an already stripped keyword changes nothing. |
| Strings.Lower | catch_stock_news/scraper.py:189 | `lower` maps each character on its own and keeps the length. |
| Strings.LowerIdempotent | catch_stock_news/scraper.py:189 | Lower-casing is idempotent. |
| Strings.JoinSplit | catch_stock_news/config.py:13 | Splitting on a separator and joining again restores the string. |
| Similarity.RunLength | catch_stock_news/database.py:181 | The common run at a pair of start positions is maximal: the slices agree, and the next characters differ or a bound is reached. |
| Similarity.BlockWithinRun | catch_stock_news/database.py:181 | Any common block at a start pair is no longer than the maximal run there. |
| Similarity.ScanStep | catch_stock_news/database.py:181 | Scanning one more start pair keeps the best block longest so far, and the earliest among equals. |
| Similarity.LongestMatch | catch_stock_news/database.py:181 | The longest match is a common block that no run in the window exceeds. Among runs of equal length it starts first, by lowest `i` then lowest `j`. |
| Similarity.MatchedChars | catch_stock_news/database.py:181 | The matched characters never exceed either string's length. |
| Similarity.Ratio | catch_stock_news/database.py:181-182 | The similarity ratio lies in [0, 1]. |
| Similarity.RatioSelf | catch_stock_news/database.py:181-182 | A title is fully similar to itself, including the empty title. |
| Similarity.RatioExtension | catch_stock_news/database.py:181-182 | A candidate title that extends a stored title `a` by `s` characters, compared as `ratio(candidate, stored)`, has a ratio of at least `2|a|/(2|a|+|s|)`. |
| Similarity.RatioDisjoint | catch_stock_news/database.py:181-182 | Titles with no character in common have ratio 0. |
| Database.EmptyStoreValid | catch_stock_news/database.py:18-85 | A freshly initialised database satisfies the schema's guarantees. |
| Database.AddKeyword | catch_stock_news/database.py:88-100 | The keyword is added iff its stripped text is new, stored stripped and enabled under the next id. A duplicate returns false and changes nothing. |
| Database.AddKeywordValid | catch_stock_news/database.py:88-100 | Adding keeps ids increasing and texts unique. |
| Database.AddKeywordTwice | catch_stock_news/database.py:93-98 | Adding the same keyword again is refused. |
| Database.DeleteKeyword | catch_stock_news/database.py:103-113 | Returns true iff the id existed. Afterwards no keyword has that id and every other keyword remains. An unknown id changes nothing. |
| Database.WithoutIdIncreasing | catch_stock_news/database.py:108 | Deleting a row keeps the remaining ids in increasing order. |
| Database.WithoutIdTexts | catch_stock_news/database.py:108 | Deleting a row keeps the remaining texts distinct. |
| Database.DeleteKeywordValid | catch_stock_news/database.py:103-113 | Deleting keeps the schema's guarantees. |
| Database.EnabledOf | catch_stock_news/database.py:121-126 | The flag lookup fails iff no keyword has the id. A found flag is that keyword's flag. |
| Database.ToggleKeyword | catch_stock_news/database.py:116-133 | Returns None iff the id is unknown, with no change. Otherwise it returns the negation of the old flag and sets exactly that keyword's flag to it, leaving the others and the other tables unchanged. |
| Database.ToggleReportsNewFlag | catch_stock_news/database.py:128-133 | The returned status is the flag the keyword now has. |
| Database.ToggleTwice | catch_stock_news/database.py:116-133 | Toggling twice restores the original store. |
| Database.ToggleKeywordValid | catch_stock_news/database.py:129 | Toggling keeps the schema's guarantees. |
| Database.GetKeywords | catch_stock_news/database.py:136-149 | Returns all keywords newest first. When asked for enabled ones only, returns that newest-first list filtered to the enabled keywords, in the same order. |
| Database.UrlsInMembers | catch_stock_news/database.py:152-161 | A URL counts as sent iff some ledger record has exactly that URL. |
| Database.SimilarAmongIff | catch_stock_news/database.py:164-185 | A title is similar iff some record in the window has a non-empty title whose ratio against it reaches the threshold. The window is the 1000 most recent titled records. |
| Database.NoTitlesNoSimilar | catch_stock_news/database.py:179-185 | Without a recorded non-empty title, nothing is similar. |
| Database.RecordedTitleIsSimilar | catch_stock_news/database.py:164-185 | A non-empty title recorded in the window is similar to itself at any threshold up to 1. |
| Database.ExtendedTitleIsSimilar | catch_stock_news/database.py:164-185 | A candidate that extends a title in the window by at most half that title's length counts as already sent at the default threshold 0.8. |
| Database.AllTitledInWindow | catch_stock_news/database.py:170-175 | With at most 1000 titled records, all of them are in the window. |
| Database.NewestCountsZero | catch_stock_news/database.py:173-174 | No titled record is more recent than the newest one. |
| Database.MarkNewsSent | catch_stock_news/database.py:188-202 | Afterwards the URL counts as sent. Marking a URL already sent keeps the original record. Otherwise one record is appended. The set of sent URLs grows by exactly that URL. |
| Database.MarkNewsSentValid | catch_stock_news/database.py:56-58 | Marking keeps ledger URLs unique. |
| Database.KeepSince | catch_stock_news/database.py:210-213 | Exactly the records stamped at or after the cutoff survive. |
| Database.CleanupOldSentNews | catch_stock_news/database.py:205-219 | Deletes exactly the records older than `days` days before now, returns how many were deleted, and touches nothing else. |
| Database.CleanupIdempotent | catch_stock_news/database.py:205-219 | A second cleanup at the same time deletes nothing. |
| Database.FreshRecordSurvives | catch_stock_news/database.py:205-219 | A URL marked now is still sent after a cleanup now. |
| Database.CleanupValid | catch_stock_news/database.py:210-213 | Cleanup keeps ledger URLs unique. |
| Database.SaveAlert | catch_stock_news/database.py:222-236 | Appends one alert under the next id, above every existing id. Its keyword list is joined with `", "` and the id is returned. Nothing else changes. |
| Database.SaveAlertValid | catch_stock_news/database.py:222-236 | Saving keeps alert ids increasing. |
| Database.GetAlerts | catch_stock_news/database.py:239-251 | Returns the newest alerts first, at most `limit` of them. A negative limit means no limit. |
| Database.SavedAlertListedFirst | catch_stock_news/database.py:222-251 | The alert just saved is listed first. |
| Database.DeleteAlert | catch_stock_news/database.py:254-264 | Afterwards the alerts are exactly the old ones without that id. |
| Database.DeleteAlertTwice | catch_stock_news/database.py:254-264 | Deleting the same alert again reports nothing deleted. |
| Database.DeleteAlertValid | catch_stock_news/database.py:259 | Deleting keeps alert ids increasing. |
| Database.ClearAllAlerts | catch_stock_news/database.py:267-277 | Returns the previous number of alerts and leaves none. The id counter is kept. |
| Database.ClearAllAlertsValid | catch_stock_news/database.py:267-277 | Clearing keeps the schema's guarantees. |
| Database.ClearThenNothingListed | catch_stock_news/database.py:267-277 | After clearing, nothing is listed and a second clear deletes nothing. |
| Config.Get | catch_stock_news/config.py:10-11 | A variable's value is passed through verbatim, or the default when it is unset. |
| Config.Number | catch_stock_news/config.py:9-15 | A numeric variable takes its default when unset and its parsed value otherwise. Unparsable text is an error naming the key and the text. |
| Config.ParseSources | catch_stock_news/config.py:13 | Every allowed source is non-empty, stripped and free of commas. |
| Config.StrippedNonBlankMembers | catch_stock_news/config.py:13 | The sources are exactly the non-blank comma-separated pieces, stripped. |
| Config.ParseSourcesJoin | catch_stock_news/config.py:13 | A clean list of names joined with commas reads back as the same list. |
| Config.SplitJoin | catch_stock_news/config.py:13 | Splitting a comma-joined list of comma-free names gives the names back. |
| Config.GetConfig | catch_stock_news/config.py:6-16 | Succeeds iff each numeric variable is unset or parses. A failure names a numeric key that is set and its text. A failure on a later key implies `CHECK_INTERVAL_MINUTES` parsed. On success the bounds are verbatim, the weekend flag is the lower-cased comparison with `true`, the sources are the parsed list, and the numbers are the parsed values or their defaults. |
| Config.EmptyEnvDefaults | catch_stock_news/config.py:8-16 | An empty environment gives interval 1, empty bounds, no weekends, no sources, threshold 0.8 and 3 pages. |
| Config.WeekendFlag | catch_stock_news/config.py:12 | Weekend notifications are on iff the variable is set and lower-cases to `true`. |
| NewsChecker.ParseHourMinute | catch_stock_news/services/news_checker.py:37-38 | A parsed `%H:%M` bound is a minute of the day, and only short texts with a colon parse. |
| NewsChecker.ParseFormat | catch_stock_news/services/news_checker.py:37-38 | Every minute of the day, written `HH:MM`, parses back to itself. |
| NewsChecker.IsNotificationTime | catch_stock_news/services/news_checker.py:18-48 | On a weekend with weekend notifications off, the gate is closed, and this is checked first. An empty bound leaves it open. An unparsable bound leaves it open. Otherwise it is open iff start ≤ now ≤ end, inclusive, with now at microsecond resolution. |
| NewsChecker.InvertedWindowNeverOpens | catch_stock_news/services/news_checker.py:41-45 | A window whose start is after its end never opens: no crossing of midnight. |
| NewsChecker.EndBoundExcludesSeconds | catch_stock_news/services/news_checker.py:39-41 | With the window 09:00 to 18:00, the time 18:00:01 is outside. |
| NewsChecker.WeekendSettingMonotone | catch_stock_news/services/news_checker.py:25-27 | Enabling weekend notifications never closes an open gate. |
| NewsChecker.ProcessItem | catch_stock_news/services/news_checker.py:85-113 | One item never touches keywords. It only appends alerts and only adds sent URLs. An error names a call that raised. |
| NewsChecker.ProcessItemOutcome | catch_stock_news/services/news_checker.py:85-113 | An item sent or similar is skipped with no effect. An accepted item adds exactly its alert and appends exactly one ledger record: its URL with its title, stamped now. It is handed to the notifier iff the gate is open. A raising check or alert insert has no effect. A raising mark leaves the alert saved and the ledger unchanged. |
| NewsChecker.ProcessItemRaises | catch_stock_news/services/news_checker.py:85-113 | Each call the iteration reaches ends it with that call's error if the call raises. The calls come in the order URL check, title check, alert insert, mark. A raising URL check, title check or alert insert has no effect. |
| NewsChecker.ProcessUpTo | catch_stock_news/services/news_checker.py:85-113 | The loop never touches keywords, only appends alerts and only adds sent URLs. |
| NewsChecker.UpToStep | catch_stock_news/services/news_checker.py:85-113 | The loop processes items in order until the first error. |
| NewsChecker.LoopKeepsFresh | catch_stock_news/services/news_checker.py:85-113 | The alerts a run adds have pairwise distinct URLs, none sent before the run, each marked sent unless the run stopped on an error. |
| NewsChecker.LoopKeepsMarked | catch_stock_news/services/news_checker.py:97-113 | While no call has raised, each added alert's URL has a ledger record stamped now that carries the alert's title, so later title checks in the run see it. |
| NewsChecker.LoopKeepsNotified | catch_stock_news/services/news_checker.py:82-110 | The notifier receives one item per added alert, with the same URLs in the same order, when the gate computed before the loop is open, and nothing otherwise. |
| NewsChecker.ErrorStops | catch_stock_news/services/news_checker.py:85-122 | After an exception no further item is processed. |
| NewsChecker.NoFailureNoError | catch_stock_news/services/news_checker.py:85-113 | Without a raising call the loop completes with no error. |
| NewsChecker.LoopValid | catch_stock_news/services/news_checker.py:85-113 | The loop keeps the schema's guarantees. |
| NewsChecker.AfterFetch | catch_stock_news/services/news_checker.py:65-122 | A failed fetch is reported with the store unchanged. An empty fetch returns with no alert, no mark and no cleanup. Otherwise, a loop error is reported with the loop's store, and the cleanup is not run. A raising cleanup is reported. When neither raises, nothing is reported, and the store is the loop's store after the seven-day cleanup. Keywords are never touched and alerts are only appended. |
| NewsChecker.CheckNewsJob | catch_stock_news/services/news_checker.py:51-122 | With no enabled keyword nothing is fetched and nothing changes. Otherwise the run reports the pages requested by fetching the listing with the configured sources and page limit. Keywords are never touched and alerts are only appended. |
| NewsChecker.RunAlerts | catch_stock_news/services/news_checker.py:82-113 | A whole run adds alerts with distinct, previously unsent URLs. When the gate is open, the notifier receives one item per added alert, with the same URLs in the same order. When it is closed, the notifier receives none. |
| NewsChecker.AfterFetchStore | catch_stock_news/services/news_checker.py:74-116 | After a non-empty fetch, the store is the loop's store when the loop or the cleanup raised. Otherwise it is the loop's store after the cleanup. |
| NewsChecker.RunValid | catch_stock_news/services/news_checker.py:65-122 | A run keeps the schema's guarantees, whatever raises. |
| NewsChecker.RunCompletes | catch_stock_news/services/news_checker.py:115-116 | Without a raising call, a non-empty batch is processed to the end and then purged with a 7-day cleanup, and no error is reported. |
| NewsChecker.RunMarksSurvive | catch_stock_news/services/news_checker.py:97-116 | After a completed run and its cleanup, every URL the run alerted on is still marked sent, with the alert's title, so the next run skips it. |
| Routes.CreateKeyword | catch_stock_news/web/routes.py:35-51 | A blank or over-100-character keyword, after stripping, gets 400 and no change. A missing field counts as blank. Otherwise the result is 201, or 409 for a duplicate with no change. On 201 the only changes are the stripped keyword appended, enabled, under the next id, and the id counter advanced. |
| Routes.MaxLengthAccepted | catch_stock_news/web/routes.py:44-47 | A keyword of exactly 100 characters proceeds to insertion. |
| Routes.CreateTwiceConflicts | catch_stock_news/web/routes.py:47-51 | Creating the same keyword twice gives 409 the second time, with no change. |
| Routes.CreateKeywordValid | catch_stock_news/web/routes.py:47 | Creation keeps the schema's guarantees. |
| Routes.RemoveKeyword | catch_stock_news/web/routes.py:54-61 | 200 iff the keyword existed, 404 otherwise with no change. Afterwards no keyword has the id, every other keyword remains, and the ledger, the alerts and the counters are unchanged. |
| Routes.RemoveTwiceNotFound | catch_stock_news/web/routes.py:54-61 | Removing the same id again gives 404. |
| Routes.ToggleKeywordStatus | catch_stock_news/web/routes.py:64-77 | 404 for an unknown id with no change. Otherwise 200 with `enabled` equal to the keyword's new flag, the negation of the old one. Only that keyword's flag changes: the other keywords, their order, the ledger and the alerts stay as they were. |
| Routes.ToggleStatusTwice | catch_stock_news/web/routes.py:64-77 | Two toggles answer with opposite flags and restore the store. |
| Routes.WindowText | catch_stock_news/web/routes.py:111 | The window reads `24/7` iff the start bound is empty. Otherwise it is exactly `<start> - <end>`. |
| Routes.Status | catch_stock_news/web/routes.py:98-113 | Reports the number of keywords, an enabled count no larger than it, the configured interval, the window text `<start> - <end>` and the gate's answer. |
| Routes.StatusEnabledCount | catch_stock_news/web/routes.py:108-109 | The enabled count equals the number of keywords a run searches for. |

## Left out

- HTTP fetching, EUC-KR decoding and BeautifulSoup selector matching. These are network and third-party HTML parsing. A page is given as pre-extracted candidate records, and fetching as a function from page number to a page or a failure.
- SQLite itself: connections, migrations and SQL errors other than the ones the code catches.
  - Timestamps are integers, and `now` is a parameter.
  - The marks and the cleanup of one run share one clock reading.
- Database.GetKeywords: `ORDER BY created_at DESC` is modelled as reverse insertion order. Rows created in the same second have no order in SQLite.
- Database.GetAlerts: `ORDER BY created_at DESC` is modelled the same way as `GetKeywords`.
- Database.SimilarAmongIff: records with equal `sent_at` are ranked by insertion order. SQLite leaves their order open.
- Database.CleanupOldSentNews: `days` is a natural number. A negative argument would build a malformed SQL modifier. The SQL comparison of timestamp strings is modelled as integer comparison.
- Similarity.Ratio: ratios and the threshold are exact reals, where Python uses floats. Float rounding of `2*M/T` is not modelled, and a NaN or infinite `TITLE_SIMILARITY_THRESHOLD` has no real stand-in.
- Similarity.Ratio: difflib's autojunk heuristic is left out. It only applies to strings of 200 characters or more.
- Strings.Lower: lower-cases ASCII letters only. Python's full Unicode case mapping is left out.
- NewsChecker.ParseHourMinute: takes ASCII digits only. `strptime` also accepts other Unicode decimal digits.
- Url.QueryOf: percent-decoding of `parse_qs` is left out. Only `+` is turned into a space.
- Url.SplitUrl: three steps of `urlparse` are left out. It does not split `;params` off the last path segment. It does not remove tab, CR and LF or strip leading C0 control characters and spaces. It does not raise `ValueError` for an unbalanced `[` or `]` in the netloc. So a path like `/x;news_read.naver?...` is treated as a redirect, a `news_\tread.naver` path is not, and a bracketed netloc does not abort the fetch.
- Url.CanonicalizeIdempotent: holds only because ids are not percent-decoded. With decoding, an `office_id` of `news_read.naver%3Farticle_id%3D7%26office_id%3D8` produces a direct link whose path contains `news_read.naver` and whose query holds new ids. A second pass would rewrite that link again.
- The integer and float parsing of `CHECK_INTERVAL_MINUTES`, `MAX_PAGES` and `TITLE_SIMILARITY_THRESHOLD`. These are parameters of `Config.GetConfig`.
- NewsChecker.CheckNewsJob: takes the settings already parsed.
  - `get_config` and `get_keywords` run outside the `try` block, so their exceptions are not modelled.
  - The gate is computed from the same settings and one clock reading.
- The Slack notifier (`notifier.py`). It builds a fixed payload and catches its own request errors, so it never raises and the run ignores its result. A run records the items it hands over as `notified`. The error notification is the run's `reported` error.
- `scheduler.py`, `app.py`, `web/__init__.py`, template rendering, logging, and the routes `index`, `list_keywords`, `check_now` and `list_alerts`. These only call the modelled operations or the framework.
- Routes.Status: `scheduler_running` and `webhook_configured` read process state and the environment, so they are left out.
- Routes.CreateKeyword: a request body that is not a JSON object, or a `keyword` that is not a string, raises inside Flask and is left out.
- Concurrent runs of the job. The code has no locking; only one sequential run is modelled.

=== FILE: config.dfy ===
/** `get_config`: the settings read from the process environment, modelled
    as a pure function of an environment map. Python's `int()` and
    `float()` are parameters: a parser returns None where Python raises
    `ValueError`. */
module Config {
  import opened Wrappers
  import opened Strings

  const CheckIntervalKey := "CHECK_INTERVAL_MINUTES"
  const StartKey := "NOTIFICATION_START_TIME"
  const EndKey := "NOTIFICATION_END_TIME"
  const WeekendKey := "ENABLE_WEEKEND_NOTIFICATIONS"
  const SourcesKey := "ALLOWED_NEWS_SOURCES"
  const ThresholdKey := "TITLE_SIMILARITY_THRESHOLD"
  const MaxPagesKey := "MAX_PAGES"

  const DefaultCheckInterval := 1
  const DefaultThreshold: real := 0.8
  const DefaultMaxPages := 3

  datatype Settings = Settings(
    checkInterval: int,
    notificationStart: string,
    notificationEnd: string,
    enableWeekend: bool,
    allowedSources: seq<string>,
    similarityThreshold: real,
    maxPages: int)

  /** The key whose value the numeric parser refused, and that value. */
  datatype ConfigError = BadNumber(key: string, text: string)

  /** `os.environ.get(key, default)` for a string default. */
  function Get(env: map<string, string>, key: string, default: string): (r: string)
    ensures key !in env ==> r == default
    ensures key in env ==> r == env[key]
  {
    if key in env then env[key] else default
  }

  /** A numeric setting: the default itself when the key is absent (it is
      not parsed), the parsed value otherwise. */
  function Number<T>(env: map<string, string>, key: string, default: T,
                     parse: string -> Option<T>): (r: Result<T, ConfigError>)
    ensures key !in env ==> r == Success(default)
    ensures key in env ==> (r.Success? <==> parse(env[key]).Some?)
    ensures key in env && r.Success? ==> r.value == parse(env[key]).value
    ensures r.Failure? ==> r.error == BadNumber(key, env[key])
  {
    if key !in env then Success(default)
    else match parse(env[key])
      case None => Failure(BadNumber(key, env[key]))
      case Some(v) => Success(v)
  }

  /** The pieces that are not blank, each stripped. */
  function StrippedNonBlank(pieces: seq<string>): (r: seq<string>)
    ensures forall s :: s in r ==> s != [] && Strip(s) == s
    ensures |r| <= |pieces|
  {
    if |pieces| == 0 then []
    else
      var head := Strip(pieces[0]);
      StripIdempotent(pieces[0]);
      if head == [] then StrippedNonBlank(pieces[1..]) else [head] + StrippedNonBlank(pieces[1..])
  }

  /** Exactly the non-blank pieces survive, stripped. */
  lemma {:induction false} StrippedNonBlankMembers(pieces: seq<string>, s: string)
    ensures s in StrippedNonBlank(pieces) <==> s != [] && exists i :: 0 <= i < |pieces| && Strip(pieces[i]) == s
  {
    if |pieces| > 0 {
      var head := Strip(pieces[0]);
      var rest := StrippedNonBlank(pieces[1..]);
      assert StrippedNonBlank(pieces) == if head == [] then rest else [head] + rest;
      StrippedNonBlankMembers(pieces[1..], s);
      StripAtShift(pieces, s);
    }
  }

  /** A piece strips to `s` at some index iff the first does or a later one does. */
  lemma StripAtShift(pieces: seq<string>, s: string)
    requires |pieces| > 0
    ensures (exists i :: 0 <= i < |pieces| && Strip(pieces[i]) == s) <==>
      Strip(pieces[0]) == s || exists i :: 0 <= i < |pieces[1..]| && Strip(pieces[1..][i]) == s
  {
    if exists i :: 0 <= i < |pieces| && Strip(pieces[i]) == s {
      var i :| 0 <= i < |pieces| && Strip(pieces[i]) == s;
      if i > 0 {
        assert pieces[1..][i - 1] == pieces[i];
      }
    }
    if exists i :: 0 <= i < |pieces[1..]| && Strip(pieces[1..][i]) == s {
      var i :| 0 <= i < |pieces[1..]| && Strip(pieces[1..][i]) == s;
      assert pieces[i + 1] == pieces[1..][i];
    }
  }

  /** No stripped piece contains a separator that no piece contains. */
  lemma {:induction false} StrippedNoComma(pieces: seq<string>)
    requires forall i :: 0 <= i < |pieces| ==> ',' !in pieces[i]
    ensures forall s :: s in StrippedNonBlank(pieces) ==> ',' !in s
  {
    if |pieces| > 0 {
      StripSubstring(pieces[0]);
      assert forall i :: 0 <= i < |pieces[1..]| ==> pieces[1..][i] == pieces[i + 1];
      StrippedNoComma(pieces[1..]);
    }
  }

  /** `[s.strip() for s in value.split(",") if s.strip()]` */
  function ParseSources(value: string): (r: seq<string>)
    ensures forall s :: s in r ==> s != [] && Strip(s) == s && ',' !in s
  {
    var pieces := Split(value, ',');
    StrippedNoComma(pieces);
    StrippedNonBlank(pieces)
  }

  /** Stripping only removes characters. */
  lemma StripSubstring(s: string)
    ensures forall c :: c in Strip(s) ==> c in s
  {
    var n := LeadingSpaces(s);
    assert Strip(s) == s[n..n + |Strip(s)|];
  }

  /** A source list that is already comma-separated clean names reads back
      unchanged. */
  lemma {:induction false} ParseSourcesJoin(names: seq<string>)
    requires names != []
    requires forall s :: s in names ==> s != [] && Strip(s) == s && ',' !in s
    ensures ParseSources(Join(names, ",")) == names
  {
    SplitJoin(names);
    CleanPieces(names);
  }

  lemma {:induction false} CleanPieces(names: seq<string>)
    requires forall s :: s in names ==> s != [] && Strip(s) == s
    ensures StrippedNonBlank(names) == names
  {
    if |names| > 0 {
      assert names[0] in names;
      assert forall s :: s in names[1..] ==> s in names;
      CleanPieces(names[1..]);
    }
  }

  /** Joining names free of the separator and splitting again restores them. */
  lemma {:induction false} SplitJoin(names: seq<string>)
    requires names != []
    requires forall s :: s in names ==> ',' !in s
    ensures Split(Join(names, ","), ',') == names
    decreases |names|
  {
    var h := names[0];
    assert h in names;
    IndexOfAbsent(h);
    if |names| == 1 {
      assert Join(names, ",") == h;
    } else {
      var tail := Join(names[1..], ",");
      var s := h + "," + tail;
      assert Join(names, ",") == s;
      IndexOfPrefix(h, tail);
      assert s[..|h|] == h;
      assert s[|h| + 1..] == tail;
      assert forall x :: x in names[1..] ==> x in names;
      SplitJoin(names[1..]);
    }
  }

  lemma IndexOfAbsent(s: string)
    requires ',' !in s
    ensures IndexOf(s, ',') == |s|
  {
    if |s| > 0 {
      assert s[0] != ',';
      assert forall c :: c in s[1..] ==> c in s;
      IndexOfAbsent(s[1..]);
    }
  }

  lemma {:induction false} IndexOfPrefix(h: string, tail: string)
    requires ',' !in h
    ensures IndexOf(h + "," + tail, ',') == |h|
    decreases |h|
  {
    if |h| > 0 {
      assert h[0] in h;
      assert (h + "," + tail)[1..] == h[1..] + "," + tail;
      assert forall c :: c in h[1..] ==> c in h;
      IndexOfPrefix(h[1..], tail);
    }
  }

  /** `get_config()`: entries are evaluated in the order written, so the
      first unparsable numeric entry is the error reported. */
  function GetConfig(env: map<string, string>, parseInt: string -> Option<int>,
                     parseReal: string -> Option<real>): (r: Result<Settings, ConfigError>)
    ensures r.Success? <==>
      Number(env, CheckIntervalKey, DefaultCheckInterval, parseInt).Success?
      && Number(env, ThresholdKey, DefaultThreshold, parseReal).Success?
      && Number(env, MaxPagesKey, DefaultMaxPages, parseInt).Success?
    ensures r.Failure? ==> (r.error.key in {CheckIntervalKey, ThresholdKey, MaxPagesKey}
      && r.error.key in env && r.error.text == env[r.error.key])
    ensures r.Failure? && r.error.key != CheckIntervalKey ==>
      Number(env, CheckIntervalKey, DefaultCheckInterval, parseInt).Success?
    ensures r.Success? ==> (r.value.notificationStart == Get(env, StartKey, "")
      && r.value.notificationEnd == Get(env, EndKey, "")
      && r.value.enableWeekend == (Lower(Get(env, WeekendKey, "false")) == "true")
      && r.value.allowedSources == ParseSources(Get(env, SourcesKey, ""))
      && r.value.checkInterval == Number(env, CheckIntervalKey, DefaultCheckInterval, parseInt).value
      && r.value.similarityThreshold == Number(env, ThresholdKey, DefaultThreshold, parseReal).value
      && r.value.maxPages == Number(env, MaxPagesKey, DefaultMaxPages, parseInt).value)
  {
    var interval :- Number(env, CheckIntervalKey, DefaultCheckInterval, parseInt);
    var threshold :- Number(env, ThresholdKey, DefaultThreshold, parseReal);
    var pages :- Number(env, MaxPagesKey, DefaultMaxPages, parseInt);
    Success(Settings(
      interval,
      Get(env, StartKey, ""),
      Get(env, EndKey, ""),
      Lower(Get(env, WeekendKey, "false")) == "true",
      ParseSources(Get(env, SourcesKey, "")),
      threshold,
      pages))
  }

  /** With nothing set, every setting has its documented default. */
  lemma EmptyEnvDefaults(parseInt: string -> Option<int>, parseReal: string -> Option<real>)
    ensures GetConfig(map[], parseInt, parseReal)
      == Success(Settings(1, "", "", false, [], 0.8, 3))
  {
    assert |Lower("false")| != |"true"|;
    assert Split("", ',') == [""];
    assert Strip("") == "";
  }

  /** Weekend notifications are on exactly for "true" in any ASCII case. */
  lemma WeekendFlag(env: map<string, string>, parseInt: string -> Option<int>,
                    parseReal: string -> Option<real>)
    requires GetConfig(env, parseInt, parseReal).Success?
    ensures GetConfig(env, parseInt, parseReal).value.enableWeekend
      <==> WeekendKey in env && Lower(env[WeekendKey]) == "true"
  {
    if WeekendKey !in env {
      assert |Lower("false")| != |"true"|;
    }
  }
}

=== FILE: database.dfy ===
/** The SQLite store as an immutable state record with three tables:
    keywords, the sent-news ledger used for deduplication, and the alert
    history. Every database function becomes a transition that returns its
    result together with the new state. Timestamps are whole seconds; the
    current time is a parameter. */
module Database {
  import opened Wrappers
  import opened Strings
  import opened Sequences
  import Similarity

  /** Only the most recent titled records take part in the similarity check. */
  const SimilarityWindow := 1000

  const SecondsPerDay := 86400

  /** Separator of the stored keyword list of an alert. */
  const KeywordSeparator := ", "

  datatype Keyword = Keyword(id: int, text: string, enabled: bool)

  datatype SentRecord = SentRecord(url: string, title: Option<string>, sentAt: int)

  datatype Alert = Alert(id: int, title: string, url: string, matchedKeywords: string,
                         newsTime: string, newsSource: Option<string>, createdAt: int)

  /** The three tables in insertion order, and the AUTOINCREMENT counters
      (ids are never reused, even after deletion). */
  datatype Store = Store(keywords: seq<Keyword>, nextKeywordId: int,
                         sent: seq<SentRecord>,
                         alerts: seq<Alert>, nextAlertId: int)

  /** A freshly initialised database. */
  const EmptyStore := Store([], 1, [], [], 1)

  /** Keyword ids are positive and below the counter. */
  predicate KeywordIdsBelow(ks: seq<Keyword>, next: int) {
    forall k :: k in ks ==> 1 <= k.id < next
  }

  /** Keyword ids increase in insertion order, hence are distinct. */
  predicate IdsIncreasing(ks: seq<Keyword>) {
    forall i, j :: 0 <= i < j < |ks| ==> ks[i].id < ks[j].id
  }

  /** The UNIQUE constraint on keyword texts. */
  predicate TextsDistinct(ks: seq<Keyword>) {
    forall i, j :: 0 <= i < j < |ks| ==> ks[i].text != ks[j].text
  }

  /** The unique index on sent URLs. */
  predicate UrlsDistinct(sent: seq<SentRecord>) {
    forall i, j :: 0 <= i < j < |sent| ==> sent[i].url != sent[j].url
  }

  /** Alert ids are positive, below the counter and increasing. */
  predicate AlertIdsOrdered(alerts: seq<Alert>, next: int) {
    && (forall a :: a in alerts ==> 1 <= a.id < next)
    && (forall i, j :: 0 <= i < j < |alerts| ==> alerts[i].id < alerts[j].id)
  }

  /** What the schema guarantees. */
  predicate Valid(s: Store) {
    && 1 <= s.nextKeywordId && 1 <= s.nextAlertId
    && KeywordIdsBelow(s.keywords, s.nextKeywordId)
    && IdsIncreasing(s.keywords)
    && TextsDistinct(s.keywords)
    && UrlsDistinct(s.sent)
    && AlertIdsOrdered(s.alerts, s.nextAlertId)
  }

  lemma EmptyStoreValid()
    ensures Valid(EmptyStore)
  {
  }

  function KeywordTexts(s: Store): set<string> {
    set k | k in s.keywords :: k.text
  }

  function IdsOf(ks: seq<Keyword>): set<int> {
    set k | k in ks :: k.id
  }

  function KeywordIds(s: Store): set<int> {
    IdsOf(s.keywords)
  }

  // ------------------------------------------------------------- keywords

  /** `add_keyword`: stores the stripped text, enabled, under a fresh id;
      a text already present is refused and nothing changes. */
  function AddKeyword(s: Store, keyword: string): (r: (bool, Store))
    ensures r.0 <==> Strip(keyword) !in KeywordTexts(s)
    ensures !r.0 ==> r.1 == s
    ensures r.0 ==> r.1 == s.(keywords := s.keywords + [Keyword(s.nextKeywordId, Strip(keyword), true)],
                             nextKeywordId := s.nextKeywordId + 1)
    ensures Strip(keyword) in KeywordTexts(r.1)
  {
    var text := Strip(keyword);
    if text in KeywordTexts(s) then (false, s)
    else
      var k := Keyword(s.nextKeywordId, text, true);
      var s' := s.(keywords := s.keywords + [k], nextKeywordId := s.nextKeywordId + 1);
      assert k in s'.keywords;
      (true, s')
  }

  /** Adding keeps the schema's guarantees. */
  lemma AddKeywordValid(s: Store, keyword: string)
    requires Valid(s)
    ensures Valid(AddKeyword(s, keyword).1)
  {
    var r := AddKeyword(s, keyword);
    if r.0 {
      var ks := r.1.keywords;
      forall i, j | 0 <= i < j < |ks|
        ensures ks[i].text != ks[j].text
      {
        if j == |ks| - 1 {
          assert ks[i] in s.keywords;
        }
      }
      assert TextsDistinct(ks);
    }
  }

  /** Adding the same keyword twice: the second call reports a duplicate. */
  lemma AddKeywordTwice(s: Store, keyword: string)
    ensures !AddKeyword(AddKeyword(s, keyword).1, keyword).0
  {
  }

  /** The keywords other than `id`, in order. */
  function WithoutId(ks: seq<Keyword>, id: int): (r: seq<Keyword>)
    ensures forall k :: k in r <==> k in ks && k.id != id
    ensures |r| <= |ks|
  {
    if |ks| == 0 then []
    else
      var rest := WithoutId(ks[1..], id);
      assert forall k :: k in ks <==> k == ks[0] || k in ks[1..];
      if ks[0].id == id then rest else [ks[0]] + rest
  }

  /** Removing keywords keeps the ids increasing. */
  lemma {:induction false} WithoutIdIncreasing(ks: seq<Keyword>, id: int)
    requires IdsIncreasing(ks)
    ensures IdsIncreasing(WithoutId(ks, id))
  {
    if |ks| > 0 {
      var tail := ks[1..];
      TailIncreasing(ks);
      WithoutIdIncreasing(tail, id);
      HeadIdBelow(ks);
      var rest := WithoutId(tail, id);
      assert WithoutId(ks, id) == if ks[0].id == id then rest else [ks[0]] + rest;
      if ks[0].id != id {
        assert forall k :: k in rest ==> k in tail;
        ConsIncreasing(ks[0], rest);
      }
    }
  }

  lemma TailIncreasing(ks: seq<Keyword>)
    requires |ks| > 0 && IdsIncreasing(ks)
    ensures IdsIncreasing(ks[1..])
  {
    var tail := ks[1..];
    forall i, j | 0 <= i < j < |tail| ensures tail[i].id < tail[j].id {
      assert tail[i] == ks[i + 1] && tail[j] == ks[j + 1];
    }
  }

  /** A keyword whose id is below every id of an increasing sequence may lead it. */
  lemma ConsIncreasing(k: Keyword, ks: seq<Keyword>)
    requires IdsIncreasing(ks) && forall x :: x in ks ==> k.id < x.id
    ensures IdsIncreasing([k] + ks)
  {
    var r := [k] + ks;
    forall i, j | 0 <= i < j < |r| ensures r[i].id < r[j].id {
      assert r[j] == ks[j - 1];
      if i > 0 {
        assert r[i] == ks[i - 1];
      }
    }
  }

  /** The first id of an increasing sequence is below every later one. */
  lemma HeadIdBelow(ks: seq<Keyword>)
    requires |ks| > 0 && IdsIncreasing(ks)
    ensures forall k :: k in ks[1..] ==> ks[0].id < k.id
  {
    forall k | k in ks[1..] ensures ks[0].id < k.id {
      var m :| 0 <= m < |ks[1..]| && ks[1..][m] == k;
      assert ks[m + 1] == k;
    }
  }

  /** Removing keywords keeps the texts distinct. */
  lemma {:induction false} WithoutIdTexts(ks: seq<Keyword>, id: int)
    requires TextsDistinct(ks)
    ensures TextsDistinct(WithoutId(ks, id))
  {
    if |ks| > 0 {
      var tail := ks[1..];
      assert TextsDistinct(tail) by {
        forall i, j | 0 <= i < j < |tail| ensures tail[i].text != tail[j].text {
          assert tail[i] == ks[i + 1] && tail[j] == ks[j + 1];
        }
      }
      WithoutIdTexts(tail, id);
      var rest := WithoutId(tail, id);
      if ks[0].id != id {
        var r := [ks[0]] + rest;
        forall i, j | 0 <= i < j < |r| ensures r[i].text != r[j].text {
          if i == 0 {
            assert r[j] == rest[j - 1] && rest[j - 1] in tail;
          } else {
            assert r[i] == rest[i - 1] && r[j] == rest[j - 1];
          }
        }
      }
    }
  }

  /** `delete_keyword`: reports whether the id existed; afterwards no
      keyword has it and every other keyword is kept. */
  function DeleteKeyword(s: Store, id: int): (r: (bool, Store))
    ensures r.0 <==> id in KeywordIds(s)
    ensures id !in KeywordIds(r.1)
    ensures forall k :: k in r.1.keywords <==> k in s.keywords && k.id != id
    ensures r.1 == s.(keywords := r.1.keywords)
    ensures !r.0 ==> r.1 == s
  {
    var ks := WithoutId(s.keywords, id);
    WithoutIdAbsent(s.keywords, id);
    (id in KeywordIds(s), s.(keywords := ks))
  }

  /** Removing an id no keyword carries removes nothing. */
  lemma {:induction false} WithoutIdAbsent(ks: seq<Keyword>, id: int)
    ensures id !in IdsOf(ks) ==> WithoutId(ks, id) == ks
  {
    if |ks| > 0 && id !in IdsOf(ks) {
      assert ks[0] in ks;
      assert IdsOf(ks[1..]) <= IdsOf(ks);
      WithoutIdAbsent(ks[1..], id);
      assert ks == [ks[0]] + ks[1..];
    }
  }

  lemma DeleteKeywordValid(s: Store, id: int)
    requires Valid(s)
    ensures Valid(DeleteKeyword(s, id).1)
  {
    WithoutIdIncreasing(s.keywords, id);
    WithoutIdTexts(s.keywords, id);
  }

  /** Sets the enabled flag of the keyword `id`. */
  function SetEnabled(ks: seq<Keyword>, id: int, enabled: bool): (r: seq<Keyword>)
    ensures |r| == |ks|
    ensures forall i :: 0 <= i < |ks| ==>
      r[i] == if ks[i].id == id then ks[i].(enabled := enabled) else ks[i]
  {
    if |ks| == 0 then []
    else [if ks[0].id == id then ks[0].(enabled := enabled) else ks[0]] + SetEnabled(ks[1..], id, enabled)
  }

  /** The enabled flag of the keyword `id`, if it exists. */
  function EnabledOf(ks: seq<Keyword>, id: int): (r: Option<bool>)
    ensures r.None? <==> id !in IdsOf(ks)
    ensures r.Some? ==> exists k :: k in ks && k.id == id && k.enabled == r.value
  {
    if |ks| == 0 then None
    else if ks[0].id == id then Some(ks[0].enabled)
    else
      assert forall k :: k in ks <==> k == ks[0] || k in ks[1..];
      assert IdsOf(ks) == {ks[0].id} + IdsOf(ks[1..]);
      EnabledOf(ks[1..], id)
  }

  /** `toggle_keyword`: None and no change for an unknown id; otherwise the
      flag is flipped and its new value returned. */
  function ToggleKeyword(s: Store, id: int): (r: (Option<bool>, Store))
    ensures r.0.None? <==> id !in KeywordIds(s)
    ensures r.0.None? ==> r.1 == s
    ensures r.0.Some? ==> EnabledOf(s.keywords, id) == Some(!r.0.value)
    ensures r.0.Some? ==> (|r.1.keywords| == |s.keywords|
      && forall i :: 0 <= i < |s.keywords| ==>
        r.1.keywords[i] == if s.keywords[i].id == id then s.keywords[i].(enabled := r.0.value) else s.keywords[i])
    ensures r.1 == s.(keywords := r.1.keywords)
  {
    var current := EnabledOf(s.keywords, id);
    if current.None? then (None, s)
    else
      var ks := SetEnabled(s.keywords, id, !current.value);
      (Some(!current.value), s.(keywords := ks))
  }

  /** The flag of the first keyword with the id is the one reported. */
  lemma {:induction false} EnabledOfFirst(ks: seq<Keyword>, id: int, i: nat)
    requires i < |ks| && ks[i].id == id
    requires forall j :: 0 <= j < i ==> ks[j].id != id
    ensures EnabledOf(ks, id) == Some(ks[i].enabled)
  {
    if i > 0 {
      EnabledOfFirst(ks[1..], id, i - 1);
    }
  }

  lemma {:induction false} EnabledOfSet(ks: seq<Keyword>, id: int, v: bool)
    requires EnabledOf(ks, id).Some?
    ensures EnabledOf(SetEnabled(ks, id, v), id) == Some(v)
  {
    if ks[0].id != id {
      assert SetEnabled(ks, id, v)[1..] == SetEnabled(ks[1..], id, v);
      EnabledOfSet(ks[1..], id, v);
    }
  }

  /** Toggling changes only flags: ids and texts stay where they were. */
  lemma ToggleKeepsIdsAndTexts(s: Store, id: int)
    ensures var ks := ToggleKeyword(s, id).1.keywords;
      |ks| == |s.keywords|
      && forall i :: 0 <= i < |ks| ==> ks[i].id == s.keywords[i].id && ks[i].text == s.keywords[i].text
  {
    var r := ToggleKeyword(s, id);
    if r.0.Some? {
      forall i | 0 <= i < |s.keywords|
        ensures r.1.keywords[i].id == s.keywords[i].id && r.1.keywords[i].text == s.keywords[i].text
      {
        assert r.1.keywords[i] == if s.keywords[i].id == id then s.keywords[i].(enabled := r.0.value) else s.keywords[i];
      }
    }
  }

  /** With unique ids, toggling flips the one keyword carrying the id. */
  lemma ToggleAt(s: Store, id: int, i0: nat)
    requires IdsIncreasing(s.keywords)
    requires i0 < |s.keywords| && s.keywords[i0].id == id
    ensures ToggleKeyword(s, id).0 == Some(!s.keywords[i0].enabled)
    ensures ToggleKeyword(s, id).1 == s.(keywords := s.keywords[i0 := s.keywords[i0].(enabled := !s.keywords[i0].enabled)])
    ensures IdsIncreasing(ToggleKeyword(s, id).1.keywords)
  {
    var ks := s.keywords;
    EnabledOfFirst(ks, id, i0);
    var r := ToggleKeyword(s, id);
    assert r.1.keywords == ks[i0 := ks[i0].(enabled := !ks[i0].enabled)];
  }

  /** Toggling twice restores the store (ids are unique, so exactly one
      keyword is touched). */
  lemma ToggleTwice(s: Store, id: int)
    requires IdsIncreasing(s.keywords)
    ensures ToggleKeyword(ToggleKeyword(s, id).1, id).1 == s
  {
    var ks := s.keywords;
    if id in IdsOf(ks) {
      var i0 := IndexOfId(ks, id);
      ToggleAt(s, id, i0);
      var s1 := ToggleKeyword(s, id).1;
      ToggleAt(s1, id, i0);
      assert s1.keywords[i0 := ks[i0]] == ks;
    }
  }

  lemma IndexOfId(ks: seq<Keyword>, id: int) returns (i: nat)
    requires id in IdsOf(ks)
    ensures i < |ks| && ks[i].id == id
  {
    var k :| k in ks && k.id == id;
    i :| 0 <= i < |ks| && ks[i] == k;
  }

  /** The flag reported is the one the keyword now has. */
  lemma ToggleReportsNewFlag(s: Store, id: int)
    requires id in KeywordIds(s)
    ensures EnabledOf(ToggleKeyword(s, id).1.keywords, id) == ToggleKeyword(s, id).0
  {
    EnabledOfSet(s.keywords, id, !EnabledOf(s.keywords, id).value);
  }

  lemma ToggleKeywordValid(s: Store, id: int)
    requires Valid(s)
    ensures Valid(ToggleKeyword(s, id).1)
  {
    var r := ToggleKeyword(s, id);
    ToggleKeepsIdsAndTexts(s, id);
    var ks := r.1.keywords;
    assert IdsIncreasing(ks);
    assert TextsDistinct(ks);
    forall k | k in ks ensures 1 <= k.id < s.nextKeywordId {
      var i :| 0 <= i < |ks| && ks[i] == k;
      assert s.keywords[i] in s.keywords;
    }
  }

  /** The enabled keywords, in order. */
  function EnabledOnly(ks: seq<Keyword>): (r: seq<Keyword>)
    ensures forall k :: k in r <==> k in ks && k.enabled
    ensures |r| <= |ks|
  {
    if |ks| == 0 then []
    else
      assert forall k :: k in ks <==> k == ks[0] || k in ks[1..];
      (if ks[0].enabled then [ks[0]] else []) + EnabledOnly(ks[1..])
  }

  /** `get_keywords(only_enabled)`: newest first; exactly the enabled
      keywords when asked for, all of them otherwise. */
  function GetKeywords(s: Store, onlyEnabled: bool): (r: seq<Keyword>)
    ensures forall k :: k in r <==> k in s.keywords && (onlyEnabled ==> k.enabled)
    ensures !onlyEnabled ==> r == Reverse(s.keywords)
    ensures onlyEnabled ==> r == EnabledOnly(Reverse(s.keywords))
  {
    EnabledOnlyReverse(s.keywords);
    var ks := if onlyEnabled then EnabledOnly(s.keywords) else s.keywords;
    var r := Reverse(ks);
    assert forall k :: k in r <==> k in ks by {
      forall k | k in ks ensures k in r {
        var i :| 0 <= i < |ks| && ks[i] == k;
        assert r[|ks| - 1 - i] == k;
      }
    }
    r
  }

  /** Filtering and reversing commute. */
  lemma {:induction false} EnabledOnlyReverse(ks: seq<Keyword>)
    ensures EnabledOnly(Reverse(ks)) == Reverse(EnabledOnly(ks))
  {
    if |ks| > 0 {
      var head := if ks[0].enabled then [ks[0]] else [];
      EnabledOnlyReverse(ks[1..]);
      assert Reverse(ks) == Reverse(ks[1..]) + [ks[0]];
      EnabledOnlyAppend(Reverse(ks[1..]), [ks[0]]);
      assert EnabledOnly([ks[0]]) == head;
      assert EnabledOnly(ks) == head + EnabledOnly(ks[1..]);
      ReverseAppend(head, EnabledOnly(ks[1..]));
      assert Reverse(head) == head;
    }
  }

  /** Filtering distributes over concatenation. */
  lemma {:induction false} EnabledOnlyAppend(a: seq<Keyword>, b: seq<Keyword>)
    ensures EnabledOnly(a + b) == EnabledOnly(a) + EnabledOnly(b)
  {
    if |a| > 0 {
      assert (a + b)[1..] == a[1..] + b;
      EnabledOnlyAppend(a[1..], b);
    } else {
      assert a + b == b;
    }
  }

  // ------------------------------------------------------------ sent news

  /** The URLs of a ledger. */
  function UrlsIn(sent: seq<SentRecord>): set<string> {
    if |sent| == 0 then {} else UrlsIn(sent[..|sent| - 1]) + {sent[|sent| - 1].url}
  }

  lemma {:induction false} UrlsInMembers(sent: seq<SentRecord>, u: string)
    ensures u in UrlsIn(sent) <==> exists i :: 0 <= i < |sent| && sent[i].url == u
  {
    if |sent| > 0 {
      var init := sent[..|sent| - 1];
      UrlsInMembers(init, u);
      if exists i :: 0 <= i < |sent| && sent[i].url == u {
        var i :| 0 <= i < |sent| && sent[i].url == u;
        if i < |sent| - 1 {
          assert init[i] == sent[i];
        }
      }
    }
  }

  function SentUrls(s: Store): set<string> {
    UrlsIn(s.sent)
  }

  /** `is_news_sent`: exact URL equality. */
  predicate IsNewsSent(s: Store, url: string) {
    url in SentUrls(s)
  }

  /** Record `j` is more recent than record `i`: later `sent_at`, or the same
      `sent_at` and inserted later. */
  predicate MoreRecent(sent: seq<SentRecord>, j: nat, i: nat)
    requires i < |sent| && j < |sent|
  {
    sent[j].sentAt > sent[i].sentAt || (sent[j].sentAt == sent[i].sentAt && j > i)
  }

  /** How many titled records among the first `n` are more recent than `i`. */
  function TitledMoreRecent(sent: seq<SentRecord>, i: nat, n: nat): (c: nat)
    requires i < |sent| && n <= |sent|
    ensures c <= n
  {
    if n == 0 then 0
    else
      var hit := sent[n - 1].title.Some? && MoreRecent(sent, n - 1, i);
      TitledMoreRecent(sent, i, n - 1) + (if hit then 1 else 0)
  }

  /** Record `i` is among the `SimilarityWindow` most recent titled records
      (`WHERE news_title IS NOT NULL ORDER BY sent_at DESC LIMIT 1000`). */
  predicate InWindow(sent: seq<SentRecord>, i: nat)
    requires i < |sent|
  {
    sent[i].title.Some? && TitledMoreRecent(sent, i, |sent|) < SimilarityWindow
  }

  /** Record `i` makes `title` count as already sent at `threshold`. */
  predicate SimilarRecord(sent: seq<SentRecord>, i: nat, title: string, threshold: real)
    requires i < |sent|
  {
    InWindow(sent, i) && sent[i].title.value != []
    && Similarity.Ratio(title, sent[i].title.value) >= threshold
  }

  /** Some record among the first `n` makes `title` count as already sent. */
  predicate SimilarAmong(sent: seq<SentRecord>, n: nat, title: string, threshold: real)
    requires n <= |sent|
  {
    n > 0 && (SimilarAmong(sent, n - 1, title, threshold) || SimilarRecord(sent, n - 1, title, threshold))
  }

  /** `is_similar_news_sent`: some non-empty title in the window is at
      least `threshold` similar to `title` (compared as `ratio(title, stored)`). */
  predicate IsSimilarNewsSent(s: Store, title: string, threshold: real) {
    SimilarAmong(s.sent, |s.sent|, title, threshold)
  }

  /** The scan finds a similar record exactly when one exists. */
  lemma {:induction false} SimilarAmongIff(sent: seq<SentRecord>, n: nat, title: string, threshold: real)
    requires n <= |sent|
    ensures SimilarAmong(sent, n, title, threshold) <==>
      exists i :: 0 <= i < n && SimilarRecord(sent, i, title, threshold)
  {
    if n > 0 {
      SimilarAmongIff(sent, n - 1, title, threshold);
    }
  }

  /** With no non-empty stored title, nothing is similar. */
  lemma NoTitlesNoSimilar(s: Store, title: string, threshold: real)
    requires forall r :: r in s.sent ==> r.title.None? || r.title.value == []
    ensures !IsSimilarNewsSent(s, title, threshold)
  {
    SimilarAmongIff(s.sent, |s.sent|, title, threshold);
  }

  /** A title recorded in the window is similar to itself at any threshold up to 1. */
  lemma RecordedTitleIsSimilar(s: Store, i: nat, threshold: real)
    requires i < |s.sent| && InWindow(s.sent, i) && s.sent[i].title.value != []
    requires threshold <= 1.0
    ensures IsSimilarNewsSent(s, s.sent[i].title.value, threshold)
  {
    Similarity.RatioSelf(s.sent[i].title.value);
    assert SimilarRecord(s.sent, i, s.sent[i].title.value, threshold);
    SimilarAmongIff(s.sent, |s.sent|, s.sent[i].title.value, threshold);
  }

  /** A candidate that extends a title in the window by at most half its
      length is similar to it at the default threshold 0.8. */
  lemma ExtendedTitleIsSimilar(s: Store, i: nat, t: string)
    requires i < |s.sent| && InWindow(s.sent, i) && s.sent[i].title.value != []
    requires 2 * |t| <= |s.sent[i].title.value|
    ensures IsSimilarNewsSent(s, s.sent[i].title.value + t, 0.8)
  {
    var a := s.sent[i].title.value;
    Similarity.RatioExtension(a, t);
    Similarity.ExtensionShare(|a|, |t|);
    assert SimilarRecord(s.sent, i, a + t, 0.8);
    SimilarAmongIff(s.sent, |s.sent|, a + t, 0.8);
  }

  /** No record is more recent than a last-inserted one stamped no earlier
      than any other. */
  lemma {:induction false} NewestCountsZero(sent: seq<SentRecord>, n: nat)
    requires |sent| > 0 && n <= |sent|
    requires forall j :: 0 <= j < |sent| ==> sent[j].sentAt <= sent[|sent| - 1].sentAt
    ensures TitledMoreRecent(sent, |sent| - 1, n) == 0
  {
    if n > 0 {
      NewestCountsZero(sent, n - 1);
    }
  }

  /** The number of titled records among the first `n`. */
  function CountTitled(sent: seq<SentRecord>, n: nat): (c: nat)
    requires n <= |sent|
    ensures c <= n
  {
    if n == 0 then 0 else CountTitled(sent, n - 1) + (if sent[n - 1].title.Some? then 1 else 0)
  }

  lemma {:induction false} MoreRecentBound(sent: seq<SentRecord>, i: nat, n: nat)
    requires i < |sent| && n <= |sent|
    ensures TitledMoreRecent(sent, i, n) + (if i < n && sent[i].title.Some? then 1 else 0) <= CountTitled(sent, n)
  {
    if n > 0 {
      MoreRecentBound(sent, i, n - 1);
    }
  }

  /** While there are at most `SimilarityWindow` titled records, every one of
      them is in the window. */
  lemma AllTitledInWindow(sent: seq<SentRecord>, i: nat)
    requires i < |sent| && sent[i].title.Some?
    requires CountTitled(sent, |sent|) <= SimilarityWindow
    ensures InWindow(sent, i)
  {
    MoreRecentBound(sent, i, |sent|);
  }

  /** `mark_news_sent`: insert-if-absent; re-marking keeps the original record. */
  function MarkNewsSent(s: Store, url: string, title: Option<string>, now: int): (r: Store)
    ensures IsNewsSent(r, url)
    ensures IsNewsSent(s, url) ==> r == s
    ensures !IsNewsSent(s, url) ==> r == s.(sent := s.sent + [SentRecord(url, title, now)])
    ensures SentUrls(r) == SentUrls(s) + {url}
  {
    if url in SentUrls(s) then s
    else
      var r := s.(sent := s.sent + [SentRecord(url, title, now)]);
      assert r.sent[..|r.sent| - 1] == s.sent;
      r
  }

  lemma MarkNewsSentValid(s: Store, url: string, title: Option<string>, now: int)
    requires Valid(s)
    ensures Valid(MarkNewsSent(s, url, title, now))
  {
    if url !in SentUrls(s) {
      var r := MarkNewsSent(s, url, title, now);
      UrlsInMembers(s.sent, url);
    }
  }

  /** The records stamped at or after `cutoff`, in order. */
  function KeepSince(sent: seq<SentRecord>, cutoff: int): (r: seq<SentRecord>)
    ensures forall x :: x in r <==> x in sent && x.sentAt >= cutoff
    ensures |r| <= |sent|
  {
    if |sent| == 0 then []
    else
      assert forall x :: x in sent <==> x == sent[0] || x in sent[1..];
      (if sent[0].sentAt >= cutoff then [sent[0]] else []) + KeepSince(sent[1..], cutoff)
  }

  /** The number of records stamped before `cutoff`. */
  function CountBefore(sent: seq<SentRecord>, cutoff: int): (c: nat)
    ensures c == |sent| - |KeepSince(sent, cutoff)|
  {
    if |sent| == 0 then 0
    else (if sent[0].sentAt < cutoff then 1 else 0) + CountBefore(sent[1..], cutoff)
  }

  /** `cleanup_old_sent_news(days)`: deletes exactly the records stamped
      before `now - days`, reporting how many. */
  function CleanupOldSentNews(s: Store, days: nat, now: int): (r: (nat, Store))
    ensures forall x :: x in r.1.sent <==> x in s.sent && x.sentAt >= now - days * SecondsPerDay
    ensures r.0 == CountBefore(s.sent, now - days * SecondsPerDay)
    ensures r.0 == |s.sent| - |r.1.sent|
    ensures r.1 == s.(sent := r.1.sent)
  {
    var cutoff := now - days * SecondsPerDay;
    (CountBefore(s.sent, cutoff), s.(sent := KeepSince(s.sent, cutoff)))
  }

  /** Records that survive a cleanup survive a second one: it deletes nothing. */
  lemma CleanupIdempotent(s: Store, days: nat, now: int)
    ensures CleanupOldSentNews(CleanupOldSentNews(s, days, now).1, days, now).0 == 0
  {
    var cutoff := now - days * SecondsPerDay;
    var once := CleanupOldSentNews(s, days, now).1;
    assert once.sent == KeepSince(s.sent, cutoff);
    KeepSinceAll(once.sent, cutoff);
    assert CountBefore(once.sent, cutoff) == 0;
    assert CleanupOldSentNews(once, days, now).0 == CountBefore(once.sent, cutoff);
  }

  lemma {:induction false} KeepSinceAll(sent: seq<SentRecord>, cutoff: int)
    requires forall x :: x in sent ==> x.sentAt >= cutoff
    ensures KeepSince(sent, cutoff) == sent
  {
    if |sent| > 0 {
      assert sent[0] in sent;
      assert forall x :: x in sent[1..] ==> x in sent;
      KeepSinceAll(sent[1..], cutoff);
    }
  }

  /** A record inserted now is never removed by a cleanup run now. */
  lemma FreshRecordSurvives(s: Store, url: string, title: Option<string>, days: nat, now: int)
    requires !IsNewsSent(s, url)
    ensures IsNewsSent(CleanupOldSentNews(MarkNewsSent(s, url, title, now), days, now).1, url)
  {
    var m := MarkNewsSent(s, url, title, now);
    var x := SentRecord(url, title, now);
    assert x in m.sent;
    var c := CleanupOldSentNews(m, days, now).1;
    assert x in c.sent;
    var i :| 0 <= i < |c.sent| && c.sent[i] == x;
    UrlsInMembers(c.sent, url);
  }

  lemma CleanupValid(s: Store, days: nat, now: int)
    requires Valid(s)
    ensures Valid(CleanupOldSentNews(s, days, now).1)
  {
    var cutoff := now - days * SecondsPerDay;
    KeepSinceUnique(s.sent, cutoff);
    assert CleanupOldSentNews(s, days, now).1 == s.(sent := KeepSince(s.sent, cutoff));
  }

  lemma {:induction false} KeepSinceUnique(sent: seq<SentRecord>, cutoff: int)
    requires UrlsDistinct(sent)
    ensures UrlsDistinct(KeepSince(sent, cutoff))
  {
    if |sent| > 0 {
      var tail := sent[1..];
      assert UrlsDistinct(tail) by {
        forall i, j | 0 <= i < j < |tail| ensures tail[i].url != tail[j].url {
          assert tail[i] == sent[i + 1] && tail[j] == sent[j + 1];
        }
      }
      KeepSinceUnique(tail, cutoff);
      var rest := KeepSince(tail, cutoff);
      if sent[0].sentAt >= cutoff {
        var r := [sent[0]] + rest;
        forall i, j | 0 <= i < j < |r| ensures r[i].url != r[j].url {
          if i == 0 {
            assert r[j] == rest[j - 1] && rest[j - 1] in tail;
            var m :| 0 <= m < |tail| && tail[m] == r[j];
            assert sent[m + 1] == r[j];
          } else {
            assert r[i] == rest[i - 1] && r[j] == rest[j - 1];
          }
        }
      }
    }
  }

  // --------------------------------------------------------------- alerts

  /** `save_alert`: appends one alert under a fresh id and returns the id;
      the keyword list is stored joined with ", ". */
  function SaveAlert(s: Store, title: string, url: string, matchedKeywords: seq<string>,
                     newsTime: string, newsSource: Option<string>, now: int): (r: (int, Store))
    ensures r.0 == s.nextAlertId
    ensures Valid(s) ==> forall a :: a in s.alerts ==> a.id < r.0
    ensures r.1.alerts == s.alerts + [Alert(r.0, title, url, Join(matchedKeywords, KeywordSeparator), newsTime, newsSource, now)]
    ensures r.1 == s.(alerts := r.1.alerts, nextAlertId := s.nextAlertId + 1)
  {
    var a := Alert(s.nextAlertId, title, url, Join(matchedKeywords, KeywordSeparator), newsTime, newsSource, now);
    (s.nextAlertId, s.(alerts := s.alerts + [a], nextAlertId := s.nextAlertId + 1))
  }

  lemma SaveAlertValid(s: Store, title: string, url: string, matchedKeywords: seq<string>,
                       newsTime: string, newsSource: Option<string>, now: int)
    requires Valid(s)
    ensures Valid(SaveAlert(s, title, url, matchedKeywords, newsTime, newsSource, now).1)
  {
  }

  /** `get_alerts(limit)`: newest first, at most `limit` (a negative limit
      means no limit in SQLite). */
  function GetAlerts(s: Store, limit: int): (r: seq<Alert>)
    ensures |r| == if 0 <= limit < |s.alerts| then limit else |s.alerts|
    ensures forall k :: 0 <= k < |r| ==> r[k] == s.alerts[|s.alerts| - 1 - k]
  {
    var newest := Reverse(s.alerts);
    if 0 <= limit < |newest| then newest[..limit] else newest
  }

  function WithoutAlert(alerts: seq<Alert>, id: int): (r: seq<Alert>)
    ensures forall a :: a in r <==> a in alerts && a.id != id
    ensures |r| <= |alerts|
  {
    if |alerts| == 0 then []
    else
      assert forall a :: a in alerts <==> a == alerts[0] || a in alerts[1..];
      (if alerts[0].id == id then [] else [alerts[0]]) + WithoutAlert(alerts[1..], id)
  }

  /** `delete_alert`: reports whether the id existed; afterwards it does not. */
  function DeleteAlert(s: Store, id: int): (r: (bool, Store))
    ensures r.0 <==> exists a :: a in s.alerts && a.id == id
    ensures forall a :: a in r.1.alerts <==> a in s.alerts && a.id != id
    ensures r.1 == s.(alerts := r.1.alerts)
  {
    (exists a :: a in s.alerts && a.id == id, s.(alerts := WithoutAlert(s.alerts, id)))
  }

  /** A deleted alert id is gone: deleting it again reports nothing. */
  lemma DeleteAlertTwice(s: Store, id: int)
    ensures !DeleteAlert(DeleteAlert(s, id).1, id).0
  {
    var s1 := DeleteAlert(s, id).1;
    assert forall a :: a in s1.alerts ==> a.id != id;
  }

  /** Deleting alerts keeps the ids ordered. */
  lemma {:induction false} DeleteAlertValid(s: Store, id: int)
    requires Valid(s)
    ensures Valid(DeleteAlert(s, id).1)
  {
    WithoutAlertOrdered(s.alerts, id, s.nextAlertId);
  }

  lemma {:induction false} WithoutAlertOrdered(alerts: seq<Alert>, id: int, next: int)
    requires AlertIdsOrdered(alerts, next)
    ensures AlertIdsOrdered(WithoutAlert(alerts, id), next)
  {
    if |alerts| > 0 {
      var tail := alerts[1..];
      AlertTailOrdered(alerts, next);
      WithoutAlertOrdered(tail, id, next);
      var rest := WithoutAlert(tail, id);
      assert WithoutAlert(alerts, id) == if alerts[0].id == id then rest else [alerts[0]] + rest;
      if alerts[0].id != id {
        AlertHeadBelow(alerts, next);
        assert forall a :: a in rest ==> a in tail;
        assert alerts[0] in alerts;
        AlertConsOrdered(alerts[0], rest, next);
      }
    }
  }

  lemma AlertTailOrdered(alerts: seq<Alert>, next: int)
    requires |alerts| > 0 && AlertIdsOrdered(alerts, next)
    ensures AlertIdsOrdered(alerts[1..], next)
  {
    var tail := alerts[1..];
    forall i, j | 0 <= i < j < |tail| ensures tail[i].id < tail[j].id {
      assert tail[i] == alerts[i + 1] && tail[j] == alerts[j + 1];
    }
  }

  lemma AlertHeadBelow(alerts: seq<Alert>, next: int)
    requires |alerts| > 0 && AlertIdsOrdered(alerts, next)
    ensures forall a :: a in alerts[1..] ==> alerts[0].id < a.id
  {
    forall a | a in alerts[1..] ensures alerts[0].id < a.id {
      var m :| 0 <= m < |alerts[1..]| && alerts[1..][m] == a;
      assert alerts[m + 1] == a;
    }
  }

  /** An alert whose id is in range and below every later id may lead them. */
  lemma AlertConsOrdered(a: Alert, alerts: seq<Alert>, next: int)
    requires AlertIdsOrdered(alerts, next) && 1 <= a.id < next
    requires forall x :: x in alerts ==> a.id < x.id
    ensures AlertIdsOrdered([a] + alerts, next)
  {
    var r := [a] + alerts;
    forall i, j | 0 <= i < j < |r| ensures r[i].id < r[j].id {
      assert r[j] == alerts[j - 1];
      if i > 0 {
        assert r[i] == alerts[i - 1];
      }
    }
  }

  /** The alert just saved is the first one listed. */
  lemma SavedAlertListedFirst(s: Store, title: string, url: string, matchedKeywords: seq<string>,
                              newsTime: string, newsSource: Option<string>, now: int, limit: int)
    requires limit != 0
    ensures var (id, s1) := SaveAlert(s, title, url, matchedKeywords, newsTime, newsSource, now);
      var listed := GetAlerts(s1, limit);
      |listed| >= 1 && listed[0] == Alert(id, title, url, Join(matchedKeywords, KeywordSeparator), newsTime, newsSource, now)
  {
  }

  /** `clear_all_alerts`: returns how many alerts there were and leaves none;
      the id counter is kept, so ids are not reused. */
  function ClearAllAlerts(s: Store): (r: (nat, Store))
    ensures r.0 == |s.alerts| && r.1.alerts == []
    ensures r.1 == s.(alerts := [])
  {
    (|s.alerts|, s.(alerts := []))
  }

  /** After clearing, nothing is listed and a second clear deletes nothing. */
  lemma ClearThenNothingListed(s: Store, limit: int)
    ensures GetAlerts(ClearAllAlerts(s).1, limit) == []
    ensures ClearAllAlerts(ClearAllAlerts(s).1).0 == 0
  {
  }

  lemma ClearAllAlertsValid(s: Store)
    requires Valid(s)
    ensures Valid(ClearAllAlerts(s).1)
  {
  }
}

=== FILE: news_checker.dfy ===
/** The news-checking service: the notification-time gate and one run of
    the background job. The clock, the page fetcher and the points where a
    database call raises are inputs; the Slack notifier is an oracle whose
    answer the job ignores, so the model records which items it was handed. */
module NewsChecker {
  import opened Wrappers
  import opened Strings
  import opened Scraper
  import opened Database
  import opened Config

  const MicrosPerMinute := 60_000_000
  const MinutesPerDay := 1440

  /** Weekday 5 (Saturday) and 6 (Sunday) make the weekend. */
  const FirstWeekendDay := 5

  /** Sent-news records older than this many days are purged after a run. */
  const RetentionDays := 7

  /** `datetime.now()`: `seconds` stamps the store, `weekday` (Monday is 0)
      and `microsOfDay` (`now.time()` to the microsecond) feed the gate. */
  datatype Clock = Clock(seconds: int, weekday: int, microsOfDay: int)

  // ------------------------------------------------------------------ gate

  predicate IsDigit(c: char) {
    '0' <= c <= '9'
  }

  /** One or two ASCII digits. */
  predicate IsShortNumber(s: string) {
    1 <= |s| <= 2 && forall i :: 0 <= i < |s| ==> IsDigit(s[i])
  }

  function DigitValue(c: char): int
    requires IsDigit(c)
  {
    c as int - '0' as int
  }

  function ShortNumberValue(s: string): (v: nat)
    requires IsShortNumber(s)
    ensures v <= 99
  {
    if |s| == 1 then DigitValue(s[0]) else 10 * DigitValue(s[0]) + DigitValue(s[1])
  }

  /** `strptime(s, "%H:%M")` as minutes after midnight: an hour of one or two
      digits up to 23, a colon, a minute of one or two digits up to 59, and
      nothing else. */
  function ParseHourMinute(s: string): (r: Option<int>)
    ensures r.Some? ==> 0 <= r.value < MinutesPerDay
    ensures r.Some? ==> ':' in s && 3 <= |s| <= 5
  {
    var i := IndexOf(s, ':');
    if i == |s| then None
    else
      var h := s[..i];
      var m := s[i + 1..];
      if IsShortNumber(h) && IsShortNumber(m) && ShortNumberValue(h) <= 23 && ShortNumberValue(m) <= 59
      then
        assert s[i] == ':';
        Some(ShortNumberValue(h) * 60 + ShortNumberValue(m))
      else None
  }

  function DigitChar(d: int): (c: char)
    requires 0 <= d <= 9
    ensures IsDigit(c) && DigitValue(c) == d
  {
    ('0' as int + d) as char
  }

  function TwoDigits(n: int): (s: string)
    requires 0 <= n <= 99
    ensures IsShortNumber(s) && ShortNumberValue(s) == n && ':' !in s
  {
    [DigitChar(n / 10), DigitChar(n % 10)]
  }

  /** The zero-padded "HH:MM" spelling of a minute of the day. */
  function FormatHourMinute(minutes: int): string
    requires 0 <= minutes < MinutesPerDay
  {
    TwoDigits(minutes / 60) + ":" + TwoDigits(minutes % 60)
  }

  /** Every minute of the day, spelled "HH:MM", parses back to itself. */
  lemma ParseFormat(minutes: int)
    requires 0 <= minutes < MinutesPerDay
    ensures ParseHourMinute(FormatHourMinute(minutes)) == Some(minutes)
  {
    var h := TwoDigits(minutes / 60);
    var m := TwoDigits(minutes % 60);
    var s := h + ":" + m;
    IndexOfAfter(h, m);
    assert s[..2] == h;
    assert s[3..] == m;
  }

  lemma IndexOfAfter(h: string, m: string)
    requires |h| == 2 && ':' !in h
    ensures IndexOf(h + ":" + m, ':') == 2
  {
    var s := h + ":" + m;
    assert s[0] == h[0] && s[1] == h[1] && s[2] == ':';
    assert s[1..][1..] == s[2..];
  }

  /** The weekend rule applies. */
  predicate WeekendBlocked(cfg: Settings, clock: Clock) {
    !cfg.enableWeekend && clock.weekday >= FirstWeekendDay
  }

  /** `is_notification_time()`: the weekend rule first; then no window when
      either bound is empty; a bound that does not parse fails open; else
      both bounds are inclusive, at whole minutes, against the current time
      of day with its seconds. */
  function IsNotificationTime(cfg: Settings, clock: Clock): (r: bool)
    ensures WeekendBlocked(cfg, clock) ==> !r
    ensures !WeekendBlocked(cfg, clock) && (cfg.notificationStart == [] || cfg.notificationEnd == []) ==> r
    ensures (!WeekendBlocked(cfg, clock)
      && (ParseHourMinute(cfg.notificationStart).None? || ParseHourMinute(cfg.notificationEnd).None?)) ==> r
    ensures ParseHourMinute(cfg.notificationStart).Some? && ParseHourMinute(cfg.notificationEnd).Some? ==>
      (r <==> (!WeekendBlocked(cfg, clock)
        && ParseHourMinute(cfg.notificationStart).value * MicrosPerMinute <= clock.microsOfDay
        && clock.microsOfDay <= ParseHourMinute(cfg.notificationEnd).value * MicrosPerMinute))
  {
    if WeekendBlocked(cfg, clock) then false
    else if cfg.notificationStart == [] || cfg.notificationEnd == [] then true
    else
      match (ParseHourMinute(cfg.notificationStart), ParseHourMinute(cfg.notificationEnd))
      case (Some(start), Some(end)) =>
        start * MicrosPerMinute <= clock.microsOfDay <= end * MicrosPerMinute
      case _ => true
  }

  /** A window whose start is after its end never opens: windows across
      midnight are not supported. */
  lemma InvertedWindowNeverOpens(cfg: Settings, clock: Clock)
    requires ParseHourMinute(cfg.notificationStart).Some? && ParseHourMinute(cfg.notificationEnd).Some?
    requires ParseHourMinute(cfg.notificationStart).value > ParseHourMinute(cfg.notificationEnd).value
    ensures !IsNotificationTime(cfg, clock)
  {
  }

  /** An end bound of "18:00" closes the window one second after 18:00. */
  lemma EndBoundExcludesSeconds(cfg: Settings, clock: Clock)
    requires cfg.notificationStart == FormatHourMinute(9 * 60)
    requires cfg.notificationEnd == FormatHourMinute(18 * 60)
    requires clock.microsOfDay == (18 * 3600 + 1) * 1_000_000
    ensures !IsNotificationTime(cfg, clock)
  {
    ParseFormat(9 * 60);
    ParseFormat(18 * 60);
  }

  /** Allowing weekends never closes the gate. */
  lemma WeekendSettingMonotone(cfg: Settings, clock: Clock)
    ensures IsNotificationTime(cfg, clock) ==> IsNotificationTime(cfg.(enableWeekend := true), clock)
  {
  }

  // ------------------------------------------------------------------- run

  /** The database calls of a run that may raise, by matched-item index. */
  datatype Step = CheckUrl(item: nat) | CheckTitle(item: nat) | StoreAlert(item: nat)
                | MarkSent(item: nat) | CleanupSent

  /** What the run reports through the error notifier. */
  datatype JobError = FetchFailed(cause: FetchError) | StepFailed(step: Step)

  /** The state of the loop over matched items. */
  datatype Progress = Progress(store: Store, notified: seq<MatchedNews>, error: Option<JobError>)

  /** One run: the final store, how many listing pages were requested, the
      items handed to the notifier, and the error reported, if any. */
  datatype RunOutcome = RunOutcome(store: Store, pagesRequested: nat, notified: seq<MatchedNews>,
                                   reported: Option<JobError>)

  /** An item is accepted when its URL is unsent and no similar title was sent. */
  predicate Accepts(s: Store, m: MatchedNews, threshold: real) {
    !IsNewsSent(s, m.url) && !IsSimilarNewsSent(s, m.title, threshold)
  }

  /** The alert an accepted item is saved as. */
  function AlertFor(s: Store, m: MatchedNews, now: int): Alert {
    Alert(s.nextAlertId, m.title, m.url, Join(m.matchedKeywords, KeywordSeparator), m.time, Some(m.source), now)
  }

  /** One iteration of the loop over matched items. A failing call has no
      effect and stops the loop with its error. */
  function ProcessItem(p: Progress, m: MatchedNews, i: nat, threshold: real, gate: bool, now: int,
                       fails: Step -> bool): (r: Progress)
    requires p.error.None?
    ensures r.store.keywords == p.store.keywords && p.store.alerts <= r.store.alerts
    ensures SentUrls(p.store) <= SentUrls(r.store)
    ensures r.error.Some? ==> r.error.value.StepFailed? && fails(r.error.value.step)
  {
    var s := p.store;
    if fails(CheckUrl(i)) then p.(error := Some(StepFailed(CheckUrl(i))))
    else if IsNewsSent(s, m.url) then p
    else if fails(CheckTitle(i)) then p.(error := Some(StepFailed(CheckTitle(i))))
    else if IsSimilarNewsSent(s, m.title, threshold) then p
    else if fails(StoreAlert(i)) then p.(error := Some(StepFailed(StoreAlert(i))))
    else
      var saved := SaveAlert(s, m.title, m.url, m.matchedKeywords, m.time, Some(m.source), now).1;
      var notified := if gate then p.notified + [m] else p.notified;
      if fails(MarkSent(i)) then Progress(saved, notified, Some(StepFailed(MarkSent(i))))
      else Progress(MarkNewsSent(saved, m.url, Some(m.title), now), notified, None)
  }

  /** What one iteration does: an item that is not accepted changes
      nothing; an accepted one yields exactly one alert, is handed to the
      notifier when the gate is open, and is then marked sent with its
      title, so later title checks see it; a failing
      call leaves the effects of the calls before it and nothing else. */
  lemma ProcessItemOutcome(p: Progress, m: MatchedNews, i: nat, threshold: real, gate: bool, now: int,
                           fails: Step -> bool)
    requires p.error.None?
    ensures var r := ProcessItem(p, m, i, threshold, gate, now, fails);
      && (r.error.None? && !Accepts(p.store, m, threshold) ==> r == p)
      && (r.error.None? && Accepts(p.store, m, threshold) ==>
          r.store.alerts == p.store.alerts + [AlertFor(p.store, m, now)]
          && SentUrls(r.store) == SentUrls(p.store) + {m.url}
          && r.store.sent == p.store.sent + [SentRecord(m.url, Some(m.title), now)]
          && r.notified == p.notified + (if gate then [m] else []))
      && (r.error.Some? ==> !r.error.value.step.CleanupSent? && r.error.value.step.item == i)
      && (r.error.Some? && r.error.value.step != MarkSent(i) ==> r.store == p.store && r.notified == p.notified)
      && (r.error == Some(StepFailed(MarkSent(i))) ==>
          Accepts(p.store, m, threshold)
          && r.store.alerts == p.store.alerts + [AlertFor(p.store, m, now)]
          && SentUrls(r.store) == SentUrls(p.store)
          && r.store.sent == p.store.sent
          && r.notified == p.notified + (if gate then [m] else []))
  {
  }

  /** Every call an iteration reaches that raises ends the iteration with
      that error, the calls being made in the order URL check, title check,
      alert insert, mark. */
  lemma ProcessItemRaises(p: Progress, m: MatchedNews, i: nat, threshold: real, gate: bool, now: int,
                          fails: Step -> bool)
    requires p.error.None?
    ensures var r := ProcessItem(p, m, i, threshold, gate, now, fails);
      && (fails(CheckUrl(i)) ==> r == p.(error := Some(StepFailed(CheckUrl(i)))))
      && (!fails(CheckUrl(i)) && !IsNewsSent(p.store, m.url) && fails(CheckTitle(i)) ==>
          r == p.(error := Some(StepFailed(CheckTitle(i)))))
      && (!fails(CheckUrl(i)) && !fails(CheckTitle(i)) && Accepts(p.store, m, threshold) && fails(StoreAlert(i)) ==>
          r == p.(error := Some(StepFailed(StoreAlert(i)))))
      && ((!fails(CheckUrl(i)) && !fails(CheckTitle(i)) && !fails(StoreAlert(i)) && Accepts(p.store, m, threshold)
           && fails(MarkSent(i))) ==> r.error == Some(StepFailed(MarkSent(i))))
  {
  }

  /** The loop over the first `n` matched items; once a call fails, the rest
      are not visited. */
  function ProcessUpTo(s: Store, ms: seq<MatchedNews>, n: nat, threshold: real, gate: bool, now: int,
                       fails: Step -> bool): (r: Progress)
    requires n <= |ms|
    ensures r.store.keywords == s.keywords
    ensures SentUrls(s) <= SentUrls(r.store)
    ensures s.alerts <= r.store.alerts
    ensures r.error.Some? ==> r.error.value.StepFailed?
    decreases n, 1
  {
    if n == 0 then Progress(s, [], None)
    else StepAt(s, ms, n, threshold, gate, now, fails)
  }

  /** The loop after its `n`-th item. */
  function StepAt(s: Store, ms: seq<MatchedNews>, n: nat, threshold: real, gate: bool, now: int,
                  fails: Step -> bool): (r: Progress)
    requires 1 <= n <= |ms|
    ensures r.store.keywords == s.keywords
    ensures SentUrls(s) <= SentUrls(r.store)
    ensures s.alerts <= r.store.alerts
    ensures r.error.Some? ==> r.error.value.StepFailed?
    decreases n, 0
  {
    var p := ProcessUpTo(s, ms, n - 1, threshold, gate, now, fails);
    if p.error.Some? then p else ProcessItem(p, ms[n - 1], n - 1, threshold, gate, now, fails)
  }

  /** The alerts a loop prefix added. */
  function Added(s: Store, p: Progress): seq<Alert>
    requires s.alerts <= p.store.alerts
  {
    p.store.alerts[|s.alerts|..]
  }

  /** The added alerts have pairwise distinct URLs none of which was sent
      before the run, and while no call failed each of them is marked sent. */
  predicate AddedFresh(s: Store, p: Progress)
    requires s.alerts <= p.store.alerts
  {
    var added := Added(s, p);
    && (forall i, j :: 0 <= i < j < |added| ==> added[i].url != added[j].url)
    && (forall a :: a in added ==> !IsNewsSent(s, a.url))
    && (p.error.None? ==> forall a :: a in added ==> IsNewsSent(p.store, a.url))
  }

  /** The notifier got exactly the items of the added alerts, in order,
      when the gate is open, and nothing when it is closed. */
  predicate NotifiedAdded(s: Store, p: Progress, gate: bool)
    requires s.alerts <= p.store.alerts
  {
    var added := Added(s, p);
    && |p.notified| == (if gate then |added| else 0)
    && (forall k :: 0 <= k < |p.notified| ==> p.notified[k].url == added[k].url)
  }

  /** While no call failed, every added alert's URL has a ledger record
      stamped `now` that carries the alert's title. */
  predicate AddedMarked(s: Store, p: Progress, now: int)
    requires s.alerts <= p.store.alerts
  {
    p.error.None? ==> forall a :: a in Added(s, p) ==> SentRecord(a.url, Some(a.title), now) in p.store.sent
  }

  /** One iteration keeps `AddedMarked`. */
  lemma ItemKeepsMarked(s: Store, p: Progress, m: MatchedNews, i: nat, threshold: real, gate: bool,
                        now: int, fails: Step -> bool)
    requires p.error.None? && s.alerts <= p.store.alerts
    requires AddedMarked(s, p, now)
    ensures AddedMarked(s, ProcessItem(p, m, i, threshold, gate, now, fails), now)
  {
    var r := ProcessItem(p, m, i, threshold, gate, now, fails);
    ProcessItemOutcome(p, m, i, threshold, gate, now, fails);
    if r.error.None? && r.store.alerts != p.store.alerts {
      assert Added(s, r) == Added(s, p) + [AlertFor(p.store, m, now)];
      forall a | a in Added(s, r) ensures SentRecord(a.url, Some(a.title), now) in r.store.sent {
        if a in Added(s, p) {
          assert SentRecord(a.url, Some(a.title), now) in p.store.sent;
        }
      }
    }
  }

  /** One iteration keeps `AddedFresh`. */
  lemma ItemKeepsFresh(s: Store, p: Progress, m: MatchedNews, i: nat, threshold: real, gate: bool,
                       now: int, fails: Step -> bool)
    requires p.error.None? && s.alerts <= p.store.alerts && SentUrls(s) <= SentUrls(p.store)
    requires AddedFresh(s, p)
    ensures AddedFresh(s, ProcessItem(p, m, i, threshold, gate, now, fails))
  {
    var r := ProcessItem(p, m, i, threshold, gate, now, fails);
    ProcessItemOutcome(p, m, i, threshold, gate, now, fails);
    var before := Added(s, p);
    if r.store.alerts != p.store.alerts {
      var a := AlertFor(p.store, m, now);
      assert Added(s, r) == before + [a];
      forall x | x in before ensures x.url != m.url && IsNewsSent(r.store, x.url) {
        assert IsNewsSent(p.store, x.url);
      }
    }
  }

  /** An iteration either leaves the alerts and the notified items alone,
      or adds the item's alert and, when the gate is open, hands the item on. */
  lemma ItemAlertsNotified(p: Progress, m: MatchedNews, i: nat, threshold: real, gate: bool, now: int,
                           fails: Step -> bool)
    requires p.error.None?
    ensures var r := ProcessItem(p, m, i, threshold, gate, now, fails);
      || (r.store.alerts == p.store.alerts && r.notified == p.notified)
      || (r.store.alerts == p.store.alerts + [AlertFor(p.store, m, now)]
          && r.notified == p.notified + (if gate then [m] else []))
  {
    ProcessItemOutcome(p, m, i, threshold, gate, now, fails);
  }

  /** One iteration keeps `NotifiedAdded`. */
  lemma ItemKeepsNotified(s: Store, p: Progress, m: MatchedNews, i: nat, threshold: real, gate: bool,
                          now: int, fails: Step -> bool)
    requires p.error.None? && s.alerts <= p.store.alerts
    requires NotifiedAdded(s, p, gate)
    ensures NotifiedAdded(s, ProcessItem(p, m, i, threshold, gate, now, fails), gate)
  {
    var r := ProcessItem(p, m, i, threshold, gate, now, fails);
    ItemAlertsNotified(p, m, i, threshold, gate, now, fails);
    if r.store.alerts != p.store.alerts {
      var a := AlertFor(p.store, m, now);
      var before := Added(s, p);
      assert Added(s, r) == before + [a];
      if gate {
        assert r.notified == p.notified + [m];
        forall k | 0 <= k < |r.notified| ensures r.notified[k].url == Added(s, r)[k].url {
          if k < |p.notified| {
            assert r.notified[k] == p.notified[k] && Added(s, r)[k] == before[k];
          }
        }
      }
    }
  }

  /** The loop state after `n` items is the previous one, or one more iteration on it. */
  lemma {:induction false} UpToStep(s: Store, ms: seq<MatchedNews>, n: nat, threshold: real,
                                    gate: bool, now: int, fails: Step -> bool)
    requires 1 <= n <= |ms|
    ensures var p := ProcessUpTo(s, ms, n - 1, threshold, gate, now, fails);
      ProcessUpTo(s, ms, n, threshold, gate, now, fails)
        == if p.error.Some? then p else ProcessItem(p, ms[n - 1], n - 1, threshold, gate, now, fails)
  {
  }

  lemma {:induction false} LoopKeepsFresh(s: Store, ms: seq<MatchedNews>, n: nat, threshold: real,
                                          gate: bool, now: int, fails: Step -> bool)
    requires n <= |ms|
    ensures AddedFresh(s, ProcessUpTo(s, ms, n, threshold, gate, now, fails))
  {
    if n > 0 {
      LoopKeepsFresh(s, ms, n - 1, threshold, gate, now, fails);
      UpToStep(s, ms, n, threshold, gate, now, fails);
      var p := ProcessUpTo(s, ms, n - 1, threshold, gate, now, fails);
      if p.error.None? {
        ItemKeepsFresh(s, p, ms[n - 1], n - 1, threshold, gate, now, fails);
      }
    }
  }

  lemma {:induction false} LoopKeepsMarked(s: Store, ms: seq<MatchedNews>, n: nat, threshold: real,
                                           gate: bool, now: int, fails: Step -> bool)
    requires n <= |ms|
    ensures AddedMarked(s, ProcessUpTo(s, ms, n, threshold, gate, now, fails), now)
  {
    if n > 0 {
      LoopKeepsMarked(s, ms, n - 1, threshold, gate, now, fails);
      UpToStep(s, ms, n, threshold, gate, now, fails);
      var p := ProcessUpTo(s, ms, n - 1, threshold, gate, now, fails);
      var r := ProcessUpTo(s, ms, n, threshold, gate, now, fails);
      if p.error.None? {
        ItemKeepsMarked(s, p, ms[n - 1], n - 1, threshold, gate, now, fails);
        assert r == ProcessItem(p, ms[n - 1], n - 1, threshold, gate, now, fails);
      } else {
        assert r.error.Some?;
      }
    }
  }

  lemma {:induction false} LoopKeepsNotified(s: Store, ms: seq<MatchedNews>, n: nat, threshold: real,
                                             gate: bool, now: int, fails: Step -> bool)
    requires n <= |ms|
    ensures NotifiedAdded(s, ProcessUpTo(s, ms, n, threshold, gate, now, fails), gate)
  {
    if n > 0 {
      LoopKeepsNotified(s, ms, n - 1, threshold, gate, now, fails);
      UpToStep(s, ms, n, threshold, gate, now, fails);
      var p := ProcessUpTo(s, ms, n - 1, threshold, gate, now, fails);
      if p.error.None? {
        ItemKeepsNotified(s, p, ms[n - 1], n - 1, threshold, gate, now, fails);
      }
    }
  }

  /** Once a call fails, the loop state no longer changes. */
  lemma {:induction false} ErrorStops(s: Store, ms: seq<MatchedNews>, n: nat, n': nat, threshold: real,
                                      gate: bool, now: int, fails: Step -> bool)
    requires n <= n' <= |ms|
    requires ProcessUpTo(s, ms, n, threshold, gate, now, fails).error.Some?
    ensures ProcessUpTo(s, ms, n', threshold, gate, now, fails) == ProcessUpTo(s, ms, n, threshold, gate, now, fails)
    decreases n' - n
  {
    if n' > n {
      ErrorStops(s, ms, n, n' - 1, threshold, gate, now, fails);
    }
  }

  /** With no failing call the loop visits every item and reports nothing. */
  lemma {:induction false} NoFailureNoError(s: Store, ms: seq<MatchedNews>, n: nat, threshold: real,
                                            gate: bool, now: int, fails: Step -> bool)
    requires n <= |ms|
    requires forall st :: !fails(st)
    ensures ProcessUpTo(s, ms, n, threshold, gate, now, fails).error.None?
  {
    if n > 0 {
      NoFailureNoError(s, ms, n - 1, threshold, gate, now, fails);
      UpToStep(s, ms, n, threshold, gate, now, fails);
    }
  }

  /** The loop keeps the schema's guarantees. */
  lemma {:induction false} LoopValid(s: Store, ms: seq<MatchedNews>, n: nat, threshold: real,
                                     gate: bool, now: int, fails: Step -> bool)
    requires n <= |ms| && Valid(s)
    ensures Valid(ProcessUpTo(s, ms, n, threshold, gate, now, fails).store)
  {
    if n > 0 {
      LoopValid(s, ms, n - 1, threshold, gate, now, fails);
      var p := ProcessUpTo(s, ms, n - 1, threshold, gate, now, fails);
      if p.error.None? {
        var m := ms[n - 1];
        var saved := SaveAlert(p.store, m.title, m.url, m.matchedKeywords, m.time, Some(m.source), now).1;
        SaveAlertValid(p.store, m.title, m.url, m.matchedKeywords, m.time, Some(m.source), now);
        MarkNewsSentValid(saved, m.url, Some(m.title), now);
      }
    }
  }

  /** The texts of keyword records, in order. */
  function Texts(ks: seq<Keyword>): (r: seq<string>)
    ensures |r| == |ks| && forall i :: 0 <= i < |ks| ==> r[i] == ks[i].text
  {
    if |ks| == 0 then [] else [ks[0].text] + Texts(ks[1..])
  }

  /** The matched items of a fetched batch, against the enabled keywords
      newest first. */
  function Matches(s: Store, items: seq<NewsItem>): seq<MatchedNews> {
    FindMatchingNews(items, Texts(GetKeywords(s, true)))
  }

  /** Lines after the fetch of `check_news_job()`: stop on an empty batch;
      match; compute the gate once; walk the matches; purge old sent
      records. A failed fetch is reported with the store untouched. */
  /** The loop of a run over the items of a successful fetch, with the gate
      read once before it. */
  function RunLoop(s: Store, cfg: Settings, clock: Clock, fails: Step -> bool, items: seq<NewsItem>): Progress {
    var matched := Matches(s, items);
    ProcessUpTo(s, matched, |matched|, cfg.similarityThreshold, IsNotificationTime(cfg, clock), clock.seconds, fails)
  }

  function AfterFetch(s: Store, cfg: Settings, clock: Clock, fails: Step -> bool, fetched: FetchOutcome): (r: RunOutcome)
    ensures r.store.keywords == s.keywords && s.alerts <= r.store.alerts
    ensures r.pagesRequested == fetched.requested
    ensures fetched.result.Failure? ==> r == RunOutcome(s, fetched.requested, [], Some(FetchFailed(fetched.result.error)))
    ensures fetched.result == Success([]) ==> r == RunOutcome(s, fetched.requested, [], None)
    ensures r.reported.Some? ==> r.reported.value.FetchFailed? == fetched.result.Failure?
    ensures fetched.result.Success? && fetched.result.value != [] ==>
      var loop := RunLoop(s, cfg, clock, fails, fetched.result.value);
      && (loop.error.Some? ==> r == RunOutcome(loop.store, fetched.requested, loop.notified, loop.error))
      && (loop.error.None? && fails(CleanupSent) ==>
          r == RunOutcome(loop.store, fetched.requested, loop.notified, Some(StepFailed(CleanupSent))))
      && (loop.error.None? && !fails(CleanupSent) ==>
          r.reported.None? && r.notified == loop.notified
          && r.store == CleanupOldSentNews(loop.store, RetentionDays, clock.seconds).1)
  {
    match fetched.result
    case Failure(e) => RunOutcome(s, fetched.requested, [], Some(FetchFailed(e)))
    case Success(items) =>
      if items == [] then RunOutcome(s, fetched.requested, [], None)
      else
        var loop := RunLoop(s, cfg, clock, fails, items);
        if loop.error.Some? then RunOutcome(loop.store, fetched.requested, loop.notified, loop.error)
        else if fails(CleanupSent) then
          RunOutcome(loop.store, fetched.requested, loop.notified, Some(StepFailed(CleanupSent)))
        else
          var cleaned := CleanupOldSentNews(loop.store, RetentionDays, clock.seconds).1;
          RunOutcome(cleaned, fetched.requested, loop.notified, None)
  }

  /** `check_news_job()`: with no enabled keyword nothing is fetched and
      nothing changes; otherwise the listing is fetched once. */
  function CheckNewsJob(s: Store, cfg: Settings, fetch: int -> PageResult, clock: Clock,
                        fails: Step -> bool): (r: RunOutcome)
    ensures GetKeywords(s, true) == [] ==> r == RunOutcome(s, 0, [], None)
    ensures GetKeywords(s, true) != [] ==>
      r.pagesRequested == FetchRealtimeNews(fetch, cfg.allowedSources, cfg.maxPages).requested
    ensures r.store.keywords == s.keywords && s.alerts <= r.store.alerts
  {
    if GetKeywords(s, true) == [] then RunOutcome(s, 0, [], None)
    else AfterFetch(s, cfg, clock, fails, FetchRealtimeNews(fetch, cfg.allowedSources, cfg.maxPages))
  }

  /** The alerts one run adds have pairwise distinct URLs, none of which
      had been sent before the run; the notifier is handed exactly their
      items, in order, when the gate is open and nothing when it is closed. */
  lemma RunAlerts(s: Store, cfg: Settings, clock: Clock, fails: Step -> bool, fetched: FetchOutcome)
    ensures var r := AfterFetch(s, cfg, clock, fails, fetched);
      var added := r.store.alerts[|s.alerts|..];
      (forall i, j :: 0 <= i < j < |added| ==> added[i].url != added[j].url)
      && (forall a :: a in added ==> !IsNewsSent(s, a.url))
      && |r.notified| == (if IsNotificationTime(cfg, clock) then |added| else 0)
      && (forall k :: 0 <= k < |r.notified| ==> r.notified[k].url == added[k].url)
  {
    if fetched.result.Success? && fetched.result.value != [] {
      var matched := Matches(s, fetched.result.value);
      var gate := IsNotificationTime(cfg, clock);
      LoopKeepsFresh(s, matched, |matched|, cfg.similarityThreshold, gate, clock.seconds, fails);
      LoopKeepsNotified(s, matched, |matched|, cfg.similarityThreshold, gate, clock.seconds, fails);
    }
  }

  /** What a run leaves in the store: the store itself when nothing was
      processed, else the loop's store, purged when the run got that far. */
  lemma AfterFetchStore(s: Store, cfg: Settings, clock: Clock, fails: Step -> bool, fetched: FetchOutcome)
    ensures var r := AfterFetch(s, cfg, clock, fails, fetched);
      if fetched.result.Failure? || fetched.result.value == [] then r.store == s
      else
        var loop := RunLoop(s, cfg, clock, fails, fetched.result.value);
        if loop.error.Some? || fails(CleanupSent) then r.store == loop.store
        else r.store == CleanupOldSentNews(loop.store, RetentionDays, clock.seconds).1
  {
  }

  /** A run keeps the schema's guarantees. */
  lemma RunValid(s: Store, cfg: Settings, clock: Clock, fails: Step -> bool, fetched: FetchOutcome)
    requires Valid(s)
    ensures Valid(AfterFetch(s, cfg, clock, fails, fetched).store)
  {
    AfterFetchStore(s, cfg, clock, fails, fetched);
    if fetched.result.Success? && fetched.result.value != [] {
      var matched := Matches(s, fetched.result.value);
      var gate := IsNotificationTime(cfg, clock);
      LoopValid(s, matched, |matched|, cfg.similarityThreshold, gate, clock.seconds, fails);
      var loop := ProcessUpTo(s, matched, |matched|, cfg.similarityThreshold, gate, clock.seconds, fails);
      CleanupValid(loop.store, RetentionDays, clock.seconds);
    }
  }

  /** Without a failing call, a non-empty batch is processed to the end and
      the old sent records are purged. */
  lemma RunCompletes(s: Store, cfg: Settings, clock: Clock, fails: Step -> bool, fetched: FetchOutcome)
    requires forall st :: !fails(st)
    requires fetched.result.Success? && fetched.result.value != []
    ensures var r := AfterFetch(s, cfg, clock, fails, fetched);
      var matched := Matches(s, fetched.result.value);
      var loop := ProcessUpTo(s, matched, |matched|, cfg.similarityThreshold, IsNotificationTime(cfg, clock), clock.seconds, fails);
      r.reported.None? && r.store == CleanupOldSentNews(loop.store, RetentionDays, clock.seconds).1
  {
    var matched := Matches(s, fetched.result.value);
    NoFailureNoError(s, matched, |matched|, cfg.similarityThreshold, IsNotificationTime(cfg, clock), clock.seconds, fails);
  }

  /** A completed run leaves every URL it alerted on marked sent, with the
      alert's title, even after the cleanup that ends it: the next run skips
      those items by URL and sees their titles. */
  lemma RunMarksSurvive(s: Store, cfg: Settings, clock: Clock, fails: Step -> bool, fetched: FetchOutcome)
    requires forall st :: !fails(st)
    requires fetched.result.Success? && fetched.result.value != []
    ensures var r := AfterFetch(s, cfg, clock, fails, fetched);
      s.alerts <= r.store.alerts
      && forall a :: a in r.store.alerts[|s.alerts|..] ==>
        SentRecord(a.url, Some(a.title), clock.seconds) in r.store.sent && IsNewsSent(r.store, a.url)
  {
    var r := AfterFetch(s, cfg, clock, fails, fetched);
    var matched := Matches(s, fetched.result.value);
    var gate := IsNotificationTime(cfg, clock);
    var now := clock.seconds;
    RunCompletes(s, cfg, clock, fails, fetched);
    NoFailureNoError(s, matched, |matched|, cfg.similarityThreshold, gate, now, fails);
    LoopKeepsMarked(s, matched, |matched|, cfg.similarityThreshold, gate, now, fails);
    var loop := ProcessUpTo(s, matched, |matched|, cfg.similarityThreshold, gate, now, fails);
    assert r.store == CleanupOldSentNews(loop.store, RetentionDays, now).1;
    assert r.store.alerts == loop.store.alerts;
    forall a | a in r.store.alerts[|s.alerts|..]
      ensures SentRecord(a.url, Some(a.title), now) in r.store.sent && IsNewsSent(r.store, a.url)
    {
      var x := SentRecord(a.url, Some(a.title), now);
      assert a in Added(s, loop);
      assert x in loop.store.sent;
      assert x in r.store.sent;
      var k :| 0 <= k < |r.store.sent| && r.store.sent[k] == x;
      UrlsInMembers(r.store.sent, a.url);
    }
  }
}

=== FILE: routes.dfy ===
/** The keyword-management decisions of the web layer (`web/routes.py`):
    how the stripped input and the store's answers map to HTTP status codes,
    and the counts and window text of the status report. Request parsing,
    JSON bodies, messages and templates are not modelled. */
module Routes {
  import opened Wrappers
  import opened Strings
  import opened Database
  import opened Config
  import opened NewsChecker

  const StatusOk := 200
  const StatusCreated := 201
  const StatusBadRequest := 400
  const StatusNotFound := 404
  const StatusConflict := 409

  /** Keywords longer than this are refused. */
  const MaxKeywordLength := 100

  /** The window text reported when no start bound is configured. */
  const AlwaysOpen := "24/7"

  /** The status code and, for a toggle, the new flag of a reply. */
  datatype Reply = Reply(status: int, enabled: Option<bool>)

  /** The fields of `/status` this model covers. */
  datatype StatusReport = StatusReport(
    keywordCount: nat,
    enabledKeywordCount: nat,
    checkInterval: int,
    notificationWindow: string,
    isNotificationTime: bool)

  /** The text `create_keyword` works on: the `keyword` field, or "" when
      the field is missing, stripped. */
  function RequestedText(keyword: Option<string>): string {
    Strip(keyword.GetOr(""))
  }

  /** `POST /keywords`: a blank or over-long keyword is a bad request and
      leaves the store alone; otherwise the keyword is added (201) or found
      to be a duplicate (409). */
  function CreateKeyword(s: Store, keyword: Option<string>): (r: (int, Store))
    ensures var text := RequestedText(keyword);
      r.0 == StatusBadRequest <==> text == [] || |text| > MaxKeywordLength
    ensures var text := RequestedText(keyword);
      r.0 == StatusCreated <==> 1 <= |text| <= MaxKeywordLength && text !in KeywordTexts(s)
    ensures var text := RequestedText(keyword);
      r.0 == StatusConflict <==> 1 <= |text| <= MaxKeywordLength && text in KeywordTexts(s)
    ensures r.0 != StatusCreated ==> r.1 == s
    ensures r.0 == StatusCreated ==>
      r.1 == s.(keywords := s.keywords + [Keyword(s.nextKeywordId, RequestedText(keyword), true)],
                nextKeywordId := s.nextKeywordId + 1)
  {
    var text := RequestedText(keyword);
    if text == [] then (StatusBadRequest, s)
    else if |text| > MaxKeywordLength then (StatusBadRequest, s)
    else
      StripIdempotent(keyword.GetOr(""));
      var (added, s') := AddKeyword(s, text);
      if added then (StatusCreated, s') else (StatusConflict, s)
  }

  /** A keyword of exactly the maximum length is not refused for its length. */
  lemma MaxLengthAccepted(s: Store, keyword: string)
    requires |Strip(keyword)| == MaxKeywordLength
    ensures CreateKeyword(s, Some(keyword)).0 in {StatusCreated, StatusConflict}
  {
  }

  /** Creating the same keyword twice: the second request is a conflict and
      changes nothing. */
  lemma CreateTwiceConflicts(s: Store, keyword: Option<string>)
    requires CreateKeyword(s, keyword).0 == StatusCreated
    ensures var s1 := CreateKeyword(s, keyword).1;
      CreateKeyword(s1, keyword) == (StatusConflict, s1)
  {
    var text := RequestedText(keyword);
    var s1 := CreateKeyword(s, keyword).1;
    assert Keyword(s.nextKeywordId, text, true) in s1.keywords;
    assert text in KeywordTexts(s1);
  }

  /** A successful creation keeps the schema's guarantees. */
  lemma CreateKeywordValid(s: Store, keyword: Option<string>)
    requires Valid(s)
    ensures Valid(CreateKeyword(s, keyword).1)
  {
    var text := RequestedText(keyword);
    if text != [] && |text| <= MaxKeywordLength {
      StripIdempotent(keyword.GetOr(""));
      AddKeywordValid(s, text);
    }
  }

  /** `DELETE /keywords/<id>`: 200 when the keyword existed, 404 otherwise;
      either way no keyword has that id afterwards. */
  function RemoveKeyword(s: Store, id: int): (r: (int, Store))
    ensures r.0 == StatusOk <==> id in KeywordIds(s)
    ensures r.0 == StatusNotFound <==> id !in KeywordIds(s)
    ensures id !in KeywordIds(r.1)
    ensures r.0 == StatusNotFound ==> r.1 == s
    ensures forall k :: k in r.1.keywords <==> k in s.keywords && k.id != id
    ensures r.1 == s.(keywords := r.1.keywords)
  {
    var (deleted, s') := DeleteKeyword(s, id);
    (if deleted then StatusOk else StatusNotFound, s')
  }

  /** Removing a keyword that no longer exists is not found. */
  lemma RemoveTwiceNotFound(s: Store, id: int)
    ensures RemoveKeyword(RemoveKeyword(s, id).1, id).0 == StatusNotFound
  {
  }

  /** `POST /keywords/<id>/toggle`: 404 for an unknown id with the store
      unchanged; otherwise 200 and the flag the keyword now has. */
  function ToggleKeywordStatus(s: Store, id: int): (r: (Reply, Store))
    ensures r.0.status == StatusNotFound <==> id !in KeywordIds(s)
    ensures r.0.status == StatusNotFound ==> r.0.enabled.None? && r.1 == s
    ensures r.0.status != StatusNotFound ==>
      r.0.status == StatusOk && r.0.enabled.Some? && EnabledOf(r.1.keywords, id) == r.0.enabled
    ensures r.0.status != StatusNotFound ==> EnabledOf(s.keywords, id) == Some(!r.0.enabled.value)
    ensures r.0.status != StatusNotFound ==> (|r.1.keywords| == |s.keywords|
      && forall i :: 0 <= i < |s.keywords| ==>
        r.1.keywords[i] == if s.keywords[i].id == id then s.keywords[i].(enabled := r.0.enabled.value) else s.keywords[i])
    ensures r.1 == s.(keywords := r.1.keywords)
  {
    var (flag, s') := ToggleKeyword(s, id);
    if flag.None? then (Reply(StatusNotFound, None), s')
    else
      ToggleReportsNewFlag(s, id);
      (Reply(StatusOk, flag), s')
  }

  /** Two toggles answer with opposite flags and restore the store. */
  lemma ToggleStatusTwice(s: Store, id: int)
    requires Valid(s) && id in KeywordIds(s)
    ensures var (first, s1) := ToggleKeywordStatus(s, id);
      var (second, s2) := ToggleKeywordStatus(s1, id);
      second.status == StatusOk && second.enabled == Some(!first.enabled.value) && s2 == s
  {
    var (first, s1) := ToggleKeywordStatus(s, id);
    ToggleTwice(s, id);
    ToggleKeepsIdsAndTexts(s, id);
    var (second, s2) := ToggleKeywordStatus(s1, id);
    assert EnabledOf(s1.keywords, id) == first.enabled;
  }

  /** The `notification_window` text: the two bounds, or "24/7" when the
      start bound is empty. Only the start bound is consulted. */
  function WindowText(cfg: Settings): (r: string)
    ensures r == AlwaysOpen <==> cfg.notificationStart == []
    ensures cfg.notificationStart != [] ==> StartsWith(r, cfg.notificationStart)
    ensures cfg.notificationStart != [] ==> r == cfg.notificationStart + " - " + cfg.notificationEnd
  {
    if cfg.notificationStart != [] then
      BoundsNotAlwaysOpen(cfg.notificationStart, cfg.notificationEnd);
      cfg.notificationStart + " - " + cfg.notificationEnd
    else AlwaysOpen
  }

  /** Two bounds with a non-empty start never read as "24/7". */
  lemma BoundsNotAlwaysOpen(start: string, end: string)
    requires start != []
    ensures StartsWith(start + " - " + end, start)
    ensures start + " - " + end != AlwaysOpen
  {
    var r := start + " - " + end;
    assert r[..|start|] == start;
    if |start| == 1 {
      assert r[1] == ' ';
    }
  }

  /** `GET /status`, without the scheduler and webhook flags. */
  function Status(s: Store, cfg: Settings, clock: Clock): (r: StatusReport)
    ensures r.keywordCount == |s.keywords|
    ensures r.enabledKeywordCount <= r.keywordCount
    ensures r.checkInterval == cfg.checkInterval
    ensures r.notificationWindow == AlwaysOpen <==> cfg.notificationStart == []
    ensures r.notificationWindow == WindowText(cfg)
    ensures r.isNotificationTime == IsNotificationTime(cfg, clock)
  {
    var all := GetKeywords(s, false);
    StatusReport(|all|, |EnabledOnly(all)|, cfg.checkInterval, WindowText(cfg), IsNotificationTime(cfg, clock))
  }

  /** The enabled count of the status report is the number of keywords the
      run would search for. */
  lemma StatusEnabledCount(s: Store, cfg: Settings, clock: Clock)
    ensures Status(s, cfg, clock).enabledKeywordCount == |GetKeywords(s, true)|
  {
    EnabledOnlyReverse(s.keywords);
  }
}

=== FILE: scraper.dfy ===
/** The scraper of the real-time stock news listing: per-page parsing with
    the allow-list filter, the fallback selectors on page 1, pagination
    with first-seen URL deduplication, and the keyword matcher.
    HTML extraction and HTTP fetching are inputs: a page arrives as the
    candidate records BeautifulSoup would have produced, and fetching is a
    function from page number to a page or a transport failure. */
module Scraper {
  import opened Wrappers
  import opened Strings
  import opened Url

  /** Origin prefixed to relative links of the listing. */
  const ListingOrigin := "https://finance.naver.com"

  /** Fallback items need a title strictly longer than this. */
  const MinFallbackTitleLength := 5

  /** The CSS selectors of the fallback pass, in the order they are tried;
      `Page.fallbacks[k]` holds the links matched by the k-th one. */
  const FallbackSelectors := ["div.mainNewsList li a", "table.type5 td.title a", "div.news_area a.tit"]

  /** `NewsItem` of models.py. */
  datatype NewsItem = NewsItem(title: string, url: string, time: string, source: string)

  /** Time and press texts of the `dd.articleSummary` sibling of a link
      (each empty when its tag is missing). */
  datatype Summary = Summary(time: string, source: string)

  /** One `articleSubject` link: its title (attribute or stripped text), its
      href (empty when absent) and the summary sibling, if there is one. */
  datatype Candidate = Candidate(title: string, href: string, summary: Option<Summary>)

  /** One link found by a fallback selector: stripped text and href. */
  datatype Link = Link(title: string, href: string)

  /** One listing page after HTML extraction. */
  datatype Page = Page(candidates: seq<Candidate>, fallbacks: seq<seq<Link>>)

  /** The response to one page request. */
  datatype PageResult = Fetched(page: Page) | Failed(reason: string)

  /** Why `fetch_realtime_news` raised: a request failed, or `max_pages < 1`
      left the loop variable unbound when the log line reads it. */
  datatype FetchError = PageFailed(pageNo: int, reason: string) | NoPageRequested

  // ---------------------------------------------------------------- parsing

  /** Relative links are made absolute against the listing's origin. */
  function Absolute(href: string): (r: string)
    ensures StartsWith(r, "http")
    ensures StartsWith(href, "http") ==> r == href
    ensures !StartsWith(href, "http") ==> r == ListingOrigin + href
  {
    if StartsWith(href, "http") then href
    else
      assert (ListingOrigin + href)[..4] == ListingOrigin[..4];
      ListingOrigin + href
  }

  /** Canonicalisation keeps a link absolute. */
  lemma CanonicalizeKeepsHttp(url: string)
    requires StartsWith(url, "http")
    ensures StartsWith(Canonicalize(url), "http")
  {
    var r := Canonicalize(url);
    if r != url {
      DirectUrlIsHttp(Lookup(QueryOf(url), "office_id").value, Lookup(QueryOf(url), "article_id").value);
    }
  }

  /** The link a scraped href ends up as. */
  function ItemUrl(href: string): (r: string)
    ensures StartsWith(r, "http")
  {
    CanonicalizeKeepsHttp(Absolute(href));
    Canonicalize(Absolute(href))
  }

  /** The allow-list test: passes when there is no list, when the source is
      unknown (empty), or when some allowed name occurs in the source. */
  predicate SourceAllowed(allowed: seq<string>, source: string) {
    allowed == [] || source == [] || exists a :: a in allowed && Contains(source, a)
  }

  function SummaryOf(c: Candidate): Summary {
    c.summary.GetOr(Summary("", ""))
  }

  /** The primary parser's treatment of one candidate. */
  function ParseCandidate(c: Candidate, allowed: seq<string>): (r: Option<NewsItem>)
    ensures r.Some? <==> c.title != [] && c.href != [] && SourceAllowed(allowed, SummaryOf(c).source)
    ensures allowed != [] && SummaryOf(c).source != [] && c.title != [] && c.href != [] ==>
      (r.Some? <==> exists a :: a in allowed && Contains(SummaryOf(c).source, a))
    ensures r.Some? ==> r.value.title == c.title && r.value.url == ItemUrl(c.href)
    ensures r.Some? ==> r.value.time == SummaryOf(c).time && r.value.source == SummaryOf(c).source
  {
    if c.title == [] || c.href == [] then None
    else
      var s := SummaryOf(c);
      if !SourceAllowed(allowed, s.source) then None
      else Some(NewsItem(c.title, ItemUrl(c.href), s.time, s.source))
  }

  /** `_parse_news_page`: the kept candidates, in page order. */
  function ParsePrimary(cs: seq<Candidate>, allowed: seq<string>): (r: seq<NewsItem>)
    ensures |r| <= |cs|
    ensures forall x :: x in r ==>
      x.title != [] && StartsWith(x.url, "http") && SourceAllowed(allowed, x.source)
  {
    if |cs| == 0 then []
    else
      var rest := ParsePrimary(cs[1..], allowed);
      match ParseCandidate(cs[0], allowed)
      case Some(x) => [x] + rest
      case None => rest
  }

  /** The primary parse holds exactly the items kept candidates yield. */
  lemma {:induction false} ParsePrimaryMembers(cs: seq<Candidate>, allowed: seq<string>, x: NewsItem)
    ensures x in ParsePrimary(cs, allowed) <==> exists c :: c in cs && ParseCandidate(c, allowed) == Some(x)
  {
    if |cs| > 0 {
      var rest := ParsePrimary(cs[1..], allowed);
      var p := ParseCandidate(cs[0], allowed);
      assert ParsePrimary(cs, allowed) == if p.Some? then [p.value] + rest else rest;
      ParsePrimaryMembers(cs[1..], allowed, x);
      if x in ParsePrimary(cs, allowed) && p != Some(x) {
        assert x in rest;
        var c :| c in cs[1..] && ParseCandidate(c, allowed) == Some(x);
        assert c in cs;
      }
      if exists c :: c in cs && ParseCandidate(c, allowed) == Some(x) {
        var c :| c in cs && ParseCandidate(c, allowed) == Some(x);
        if c != cs[0] {
          assert c in cs[1..];
        }
      }
    }
  }

  /** Parsing distributes over concatenation: the primary parser keeps page order. */
  lemma {:induction false} ParsePrimaryAppend(cs: seq<Candidate>, ds: seq<Candidate>, allowed: seq<string>)
    ensures ParsePrimary(cs + ds, allowed) == ParsePrimary(cs, allowed) + ParsePrimary(ds, allowed)
    decreases |cs|
  {
    if |cs| > 0 {
      assert (cs + ds)[1..] == cs[1..] + ds;
      ParsePrimaryAppend(cs[1..], ds, allowed);
    } else {
      assert cs + ds == ds;
    }
  }

  /** The fallback pass keeps links with a title longer than five
      characters and a non-empty href. */
  predicate FallbackKeeps(l: Link) {
    l.href != [] && |l.title| > MinFallbackTitleLength
  }

  /** The item a kept fallback link becomes: no time, no source. */
  function FallbackItem(l: Link): NewsItem {
    NewsItem(l.title, ItemUrl(l.href), "", "")
  }

  /** No selector before the k-th yields any item. */
  predicate NoneBefore(selectors: seq<seq<Link>>, k: nat)
    requires k <= |selectors|
  {
    forall k' :: 0 <= k' < k ==> FallbackItems(selectors[k']) == []
  }

  /** The items one fallback selector yields: links with a title longer
      than five characters and a non-empty href; no time, no source. */
  function FallbackItems(links: seq<Link>): (r: seq<NewsItem>)
    ensures |r| <= |links|
    ensures forall x :: x in r ==>
      |x.title| > MinFallbackTitleLength && x.time == [] && x.source == [] && StartsWith(x.url, "http")
    ensures forall x :: x in r <==> exists l :: l in links && FallbackKeeps(l) && x == FallbackItem(l)
  {
    if |links| == 0 then []
    else
      var l := links[0];
      var rest := FallbackItems(links[1..]);
      assert forall m :: m in links[1..] ==> m in links;
      assert forall m :: m in links ==> m == l || m in links[1..];
      if FallbackKeeps(l) then [FallbackItem(l)] + rest
      else rest
  }

  /** `_fetch_alternative_format`: the items of the first selector that
      yields any; the allow-list plays no part. */
  function ParseFallback(selectors: seq<seq<Link>>): (r: seq<NewsItem>)
    ensures forall x :: x in r ==>
      |x.title| > MinFallbackTitleLength && x.time == [] && x.source == [] && StartsWith(x.url, "http")
    ensures r != [] ==> exists k :: 0 <= k < |selectors| && r == FallbackItems(selectors[k]) && NoneBefore(selectors, k)
    ensures r == [] <==> forall k :: 0 <= k < |selectors| ==> FallbackItems(selectors[k]) == []
  {
    if |selectors| == 0 then []
    else
      var first := FallbackItems(selectors[0]);
      if first != [] then first
      else
        var r := ParseFallback(selectors[1..]);
        assert forall k :: 1 <= k < |selectors| ==> selectors[k] == selectors[1..][k - 1];
        if r != [] then
          var k :| 0 <= k < |selectors[1..]| && r == FallbackItems(selectors[1..][k]) && NoneBefore(selectors[1..], k);
          assert r == FallbackItems(selectors[k + 1]);
          assert NoneBefore(selectors, k + 1);
          r
        else r
  }

  /** The items of page `pageNo`: the primary parse, or on page 1 when that
      is empty, the fallback parse. */
  function ParsePage(page: Page, pageNo: int, allowed: seq<string>): (r: seq<NewsItem>)
    ensures pageNo != 1 || ParsePrimary(page.candidates, allowed) != [] ==>
      r == ParsePrimary(page.candidates, allowed)
    ensures pageNo == 1 && ParsePrimary(page.candidates, allowed) == [] ==>
      r == ParseFallback(page.fallbacks)
    ensures forall x :: x in r ==> x.title != [] && StartsWith(x.url, "http")
  {
    var primary := ParsePrimary(page.candidates, allowed);
    if primary == [] && pageNo == 1 then ParseFallback(page.fallbacks) else primary
  }

  // ------------------------------------------------------------- pagination

  /** What a page request amounts to for pagination: the parsed items of
      page `pageNo`, or the transport failure. */
  function ParseResponse(response: PageResult, pageNo: int, allowed: seq<string>): Result<seq<NewsItem>, string> {
    match response
    case Fetched(page) => Success(ParsePage(page, pageNo, allowed))
    case Failed(reason) => Failure(reason)
  }

  /** The parsed response of every page number, for a fetch function. */
  function Responses(fetch: int -> PageResult, allowed: seq<string>): int -> Result<seq<NewsItem>, string> {
    p => ParseResponse(fetch(p), p, allowed)
  }

  /** Page `p` lets pagination go on: it was fetched and yielded items. */
  predicate Continues(parsed: int -> Result<seq<NewsItem>, string>, p: int) {
    parsed(p).Success? && parsed(p).value != []
  }

  /** The items of pages 1..n, concatenated in page order (a failed page
      contributes nothing). */
  function ItemsUpTo(parsed: int -> Result<seq<NewsItem>, string>, n: nat): (r: seq<NewsItem>)
    ensures forall x :: x in r ==> exists p :: 1 <= p <= n && parsed(p).Success? && x in parsed(p).value
  {
    if n == 0 then []
    else
      var prev := ItemsUpTo(parsed, n - 1);
      var page := if parsed(n).Success? then parsed(n).value else [];
      var r := prev + page;
      assert forall x :: x in r ==> x in prev || x in page;
      r
  }

  /** The last page requested when pagination starts at page `p`. */
  function LastPage(parsed: int -> Result<seq<NewsItem>, string>, p: int, maxPages: int): (n: int)
    requires 1 <= p <= maxPages
    ensures p <= n <= maxPages
    ensures forall q :: p <= q < n ==> Continues(parsed, q)
    ensures n == maxPages || !Continues(parsed, n)
    decreases maxPages - p
  {
    if p == maxPages || !Continues(parsed, p) then p
    else LastPage(parsed, p + 1, maxPages)
  }

  function UrlsOf(s: seq<NewsItem>): set<string> {
    set x | x in s :: x.url
  }

  /** The first-seen deduplication of a batch by URL: an item is appended
      when its URL does not occur earlier in the batch. */
  function Dedup(s: seq<NewsItem>): (r: seq<NewsItem>)
    ensures forall x :: x in r ==> x in s
    ensures UrlsOf(r) == UrlsOf(s)
    ensures forall i, j :: 0 <= i < j < |r| ==> r[i].url != r[j].url
  {
    if |s| == 0 then []
    else
      var prefix := s[..|s| - 1];
      var x := s[|s| - 1];
      var d := Dedup(prefix);
      assert s == prefix + [x];
      assert UrlsOf(s) == UrlsOf(prefix) + {x.url};
      if x.url in UrlsOf(prefix) then d
      else
        assert x.url !in UrlsOf(d);
        assert UrlsOf(d + [x]) == UrlsOf(d) + {x.url};
        d + [x]
  }

  /** The outcome of `fetch_realtime_news` together with how many pages
      were requested. */
  datatype FetchOutcome = FetchOutcome(result: Result<seq<NewsItem>, FetchError>, requested: nat)

  /** Pagination over parsed pages: pages 1..max_pages in order, stopping
      after the first page that yields nothing; a failed request aborts the
      whole call with no partial result. */
  function Paginate(parsed: int -> Result<seq<NewsItem>, string>, maxPages: int): (o: FetchOutcome)
    ensures maxPages < 1 ==> o == FetchOutcome(Failure(NoPageRequested), 0)
    ensures maxPages >= 1 ==> 1 <= o.requested <= maxPages
    ensures forall p :: 1 <= p < o.requested ==> Continues(parsed, p)
    ensures maxPages >= 1 ==> o.requested == maxPages || !Continues(parsed, o.requested)
    ensures o.result.Success? ==>
      parsed(o.requested).Success? && o.result.value == Dedup(ItemsUpTo(parsed, o.requested))
    ensures maxPages >= 1 && o.result.Failure? ==>
      parsed(o.requested).Failure? && o.result.error == PageFailed(o.requested, parsed(o.requested).error)
  {
    if maxPages < 1 then FetchOutcome(Failure(NoPageRequested), 0)
    else
      var n := LastPage(parsed, 1, maxPages);
      match parsed(n)
      case Failure(reason) => FetchOutcome(Failure(PageFailed(n, reason)), n)
      case Success(_) => FetchOutcome(Success(Dedup(ItemsUpTo(parsed, n))), n)
  }

  /** `fetch_realtime_news(allowed_sources, max_pages)`. */
  function FetchRealtimeNews(fetch: int -> PageResult, allowed: seq<string>, maxPages: int): FetchOutcome {
    Paginate(Responses(fetch, allowed), maxPages)
  }

  /** One more item through the seen-set: Dedup appends it iff its URL is new. */
  lemma DedupSnoc(s: seq<NewsItem>, x: NewsItem)
    ensures Dedup(s + [x]) == if x.url in UrlsOf(s) then Dedup(s) else Dedup(s) + [x]
    ensures UrlsOf(s + [x]) == UrlsOf(s) + {x.url}
  {
    assert (s + [x])[..|s|] == s;
  }

  /** Extending a prefix by one element. */
  lemma PrefixSnoc(before: seq<NewsItem>, s: seq<NewsItem>, i: nat)
    requires i < |s|
    ensures before + s[..i + 1] == (before + s[..i]) + [s[i]]
  {
    assert s[..i + 1] == s[..i] + [s[i]];
  }

  /** The inner loop of `fetch_realtime_news`: appends the items of one
      page whose URL is not in `seen`, adding their URLs to `seen`. */
  method AppendUnseen(ghost before: seq<NewsItem>, items: seq<NewsItem>, seen: set<string>, pageItems: seq<NewsItem>)
    returns (items': seq<NewsItem>, seen': set<string>)
    requires items == Dedup(before) && seen == UrlsOf(before)
    ensures items' == Dedup(before + pageItems) && seen' == UrlsOf(before + pageItems)
  {
    items', seen' := items, seen;
    var i := 0;
    assert before + pageItems[..0] == before;
    while i < |pageItems|
      invariant 0 <= i <= |pageItems|
      invariant items' == Dedup(before + pageItems[..i])
      invariant seen' == UrlsOf(before + pageItems[..i])
    {
      var x := pageItems[i];
      ghost var done := before + pageItems[..i];
      PrefixSnoc(before, pageItems, i);
      DedupSnoc(done, x);
      if x.url !in seen' {
        seen' := seen' + {x.url};
        items' := items' + [x];
      }
      i := i + 1;
    }
    assert pageItems[..i] == pageItems;
  }

  /** The request loop of `fetch_realtime_news` as written, with a seen-set
      and an accumulator, over the parsed pages; it computes exactly
      `Paginate`. */
  method PaginateLoop(parsed: int -> Result<seq<NewsItem>, string>, maxPages: int)
    returns (r: Result<seq<NewsItem>, FetchError>, requested: nat)
    ensures FetchOutcome(r, requested) == Paginate(parsed, maxPages)
  {
    if maxPages < 1 {
      return Failure(NoPageRequested), 0;
    }
    var items: seq<NewsItem> := [];
    var seen: set<string> := {};
    var page := 1;
    while true
      invariant 1 <= page <= maxPages
      invariant LastPage(parsed, 1, maxPages) == LastPage(parsed, page, maxPages)
      invariant items == Dedup(ItemsUpTo(parsed, page - 1))
      invariant seen == UrlsOf(ItemsUpTo(parsed, page - 1))
      decreases maxPages - page
    {
      var response := parsed(page);
      if response.Failure? {
        return Failure(PageFailed(page, response.error)), page;
      }
      var pageItems := response.value;
      items, seen := AppendUnseen(ItemsUpTo(parsed, page - 1), items, seen, pageItems);
      if pageItems == [] || page == maxPages {
        return Success(items), page;
      }
      page := page + 1;
    }
  }

  /** The first index at which `u` occurs as a URL in `s`. */
  function FirstIndex(s: seq<NewsItem>, u: string): (i: nat)
    requires u in UrlsOf(s)
    ensures i < |s| && s[i].url == u
    ensures forall j :: 0 <= j < i ==> s[j].url != u
  {
    if s[0].url == u then 0
    else
      assert u in UrlsOf(s[1..]);
      FirstIndex(s[1..], u) + 1
  }

  /** `FirstIndex` is unaffected by appending. */
  lemma FirstIndexAppend(s: seq<NewsItem>, x: NewsItem, u: string)
    requires u in UrlsOf(s)
    ensures u in UrlsOf(s + [x]) && FirstIndex(s + [x], u) == FirstIndex(s, u)
  {
    var i := FirstIndex(s, u);
    var j := FirstIndex(s + [x], u);
    assert (s + [x])[i] == s[i];
  }

  /** Dedup keeps, for every URL, its first occurrence, and keeps these in
      the order in which they were first seen. */
  lemma {:induction false} DedupFirstSeen(s: seq<NewsItem>)
    ensures forall k :: 0 <= k < |Dedup(s)| ==> (Dedup(s)[k].url in UrlsOf(s)
      && Dedup(s)[k] == s[FirstIndex(s, Dedup(s)[k].url)])
    ensures forall k1, k2 :: 0 <= k1 < k2 < |Dedup(s)| ==>
      FirstIndex(s, Dedup(s)[k1].url) < FirstIndex(s, Dedup(s)[k2].url)
    decreases |s|
  {
    if |s| > 0 {
      var prefix := s[..|s| - 1];
      var x := s[|s| - 1];
      assert s == prefix + [x];
      DedupFirstSeen(prefix);
      var d := Dedup(prefix);
      forall k | 0 <= k < |d|
        ensures FirstIndex(s, d[k].url) == FirstIndex(prefix, d[k].url)
        ensures d[k] == s[FirstIndex(s, d[k].url)]
      {
        FirstIndexAppend(prefix, x, d[k].url);
      }
      if x.url !in UrlsOf(prefix) {
        assert FirstIndex(s, x.url) == |prefix|;
        forall k | 0 <= k < |d|
          ensures FirstIndex(s, d[k].url) < |prefix|
        {
          FirstIndexAppend(prefix, x, d[k].url);
        }
      }
    }
  }

  // --------------------------------------------------------- keyword match

  /** `keyword.lower() in title.lower()` */
  predicate KeywordHits(keyword: string, title: string) {
    Contains(Lower(title), Lower(keyword))
  }

  /** The keywords that hit a title, in keyword order. */
  function HitsOf(keywords: seq<string>, title: string): (r: seq<string>)
    ensures |r| <= |keywords|
    ensures forall k :: k in r <==> k in keywords && KeywordHits(k, title)
  {
    if |keywords| == 0 then []
    else
      var rest := HitsOf(keywords[1..], title);
      assert forall k :: k in keywords <==> k == keywords[0] || k in keywords[1..];
      if KeywordHits(keywords[0], title) then [keywords[0]] + rest else rest
  }

  /** Hits keep keyword order: they distribute over concatenated keyword lists. */
  lemma {:induction false} HitsOfAppend(ks: seq<string>, ls: seq<string>, title: string)
    ensures HitsOf(ks + ls, title) == HitsOf(ks, title) + HitsOf(ls, title)
    decreases |ks|
  {
    if |ks| > 0 {
      assert (ks + ls)[1..] == ks[1..] + ls;
      HitsOfAppend(ks[1..], ls, title);
    } else {
      assert ks + ls == ls;
    }
  }

  /** A matched item: the news fields plus the keywords that hit it. */
  datatype MatchedNews = MatchedNews(title: string, url: string, time: string, source: string, matchedKeywords: seq<string>)

  function Annotate(x: NewsItem, keywords: seq<string>): MatchedNews {
    MatchedNews(x.title, x.url, x.time, x.source, HitsOf(keywords, x.title))
  }

  /** `find_matching_news`: the items some keyword hits, in order, each
      with its non-empty list of hits; fields are copied unchanged. */
  function FindMatchingNews(items: seq<NewsItem>, keywords: seq<string>): (r: seq<MatchedNews>)
    ensures |r| <= |items|
    ensures forall m :: m in r ==> (m.matchedKeywords != []
      && exists x :: x in items && m == Annotate(x, keywords))
    ensures forall x :: x in items && (exists k :: k in keywords && KeywordHits(k, x.title)) ==>
      Annotate(x, keywords) in r
  {
    if |items| == 0 then []
    else
      var x := items[0];
      var rest := FindMatchingNews(items[1..], keywords);
      assert forall y :: y in items <==> y == x || y in items[1..];
      var a := Annotate(x, keywords);
      if a.matchedKeywords != [] then [a] + rest
      else
        assert forall k :: k in keywords ==> !KeywordHits(k, x.title);
        rest
  }

  /** Matching keeps item order: it distributes over concatenated batches. */
  lemma {:induction false} FindMatchingNewsAppend(xs: seq<NewsItem>, ys: seq<NewsItem>, keywords: seq<string>)
    ensures FindMatchingNews(xs + ys, keywords) == FindMatchingNews(xs, keywords) + FindMatchingNews(ys, keywords)
    decreases |xs|
  {
    if |xs| > 0 {
      assert (xs + ys)[1..] == xs[1..] + ys;
      FindMatchingNewsAppend(xs[1..], ys, keywords);
    } else {
      assert xs + ys == ys;
    }
  }

  /** The match is case-insensitive for ASCII letters: lower-casing the
      keyword or the title does not change it. */
  lemma KeywordHitsCaseInsensitive(keyword: string, title: string)
    ensures KeywordHits(keyword, title) == KeywordHits(Lower(keyword), title)
    ensures KeywordHits(keyword, title) == KeywordHits(keyword, Lower(title))
  {
    LowerIdempotent(keyword);
    LowerIdempotent(title);
  }
}

=== FILE: sequences.dfy ===
/** Generic facts about sequences that several modules share. */
module Sequences {

  /** The elements of `xs` in reverse order. */
  function Reverse<T>(xs: seq<T>): (r: seq<T>)
    ensures |r| == |xs|
    ensures forall i :: 0 <= i < |xs| ==> r[i] == xs[|xs| - 1 - i]
  {
    if |xs| == 0 then [] else Reverse(xs[1..]) + [xs[0]]
  }

  /** Reversal turns a concatenation around. */
  lemma ReverseAppend<T>(a: seq<T>, b: seq<T>)
    ensures Reverse(a + b) == Reverse(b) + Reverse(a)
  {
  }
}

=== FILE: similarity.dfy ===
/** The title-similarity ratio used by the dedup store: difflib's
    `SequenceMatcher(None, a, b).ratio()`, i.e. `2*M / T` where `T` is the
    sum of both lengths and `M` the number of characters in the matching
    blocks found by repeatedly taking a longest common block (leftmost in
    `a`, then leftmost in `b`) and recursing on both sides of it. */
module Similarity {

  /** `a[i..i+k] == b[j..j+k]`, difflib's `Match(a, b, size)`. */
  datatype Block = Block(i: nat, j: nat, k: nat)

  /** A common block inside the window `a[alo..ahi]` x `b[blo..bhi]`. */
  predicate IsBlock(a: string, b: string, alo: nat, ahi: nat, blo: nat, bhi: nat, x: Block)
    requires alo <= ahi <= |a| && blo <= bhi <= |b|
  {
    alo <= x.i && x.i + x.k <= ahi && blo <= x.j && x.j + x.k <= bhi
    && a[x.i..x.i + x.k] == b[x.j..x.j + x.k]
  }

  /** The length of the longest common run starting at `a[i]` and `b[j]`
      without leaving the window. */
  function RunLength(a: string, b: string, i: nat, j: nat, ahi: nat, bhi: nat): (n: nat)
    requires i <= ahi <= |a| && j <= bhi <= |b|
    ensures i + n <= ahi && j + n <= bhi
    ensures a[i..i + n] == b[j..j + n]
    ensures i + n < ahi && j + n < bhi ==> a[i + n] != b[j + n]
    decreases ahi - i
  {
    if i < ahi && j < bhi && a[i] == b[j] then
      var n := RunLength(a, b, i + 1, j + 1, ahi, bhi);
      assert a[i..i + 1 + n] == [a[i]] + a[i + 1..i + 1 + n];
      assert b[j..j + 1 + n] == [b[j]] + b[j + 1..j + 1 + n];
      1 + n
    else 0
  }

  /** Every common block is no longer than the run at its start. */
  lemma {:induction false} BlockWithinRun(a: string, b: string, i: nat, j: nat, k: nat, ahi: nat, bhi: nat)
    requires i + k <= ahi <= |a| && j + k <= bhi <= |b|
    requires a[i..i + k] == b[j..j + k]
    ensures k <= RunLength(a, b, i, j, ahi, bhi)
    decreases k
  {
    if k > 0 {
      assert a[i] == a[i..i + k][0] && b[j] == b[j..j + k][0];
      assert a[i + 1..i + k] == a[i..i + k][1..];
      assert b[j + 1..j + k] == b[j..j + k][1..];
      BlockWithinRun(a, b, i + 1, j + 1, k - 1, ahi, bhi);
    }
  }

  /** Position (i', j') is scanned before (i, j) (row-major order). */
  predicate Before(i': nat, j': nat, i: nat, j: nat) {
    i' < i || (i' == i && j' < j)
  }

  /** `best` is what difflib's `find_longest_match` would answer if the
      window's start positions stopped just before (i, j): a common block,
      at least as long as every run scanned so far, the first such one in
      scan order, and `(alo, blo, 0)` when nothing matched. */
  predicate BestSoFar(a: string, b: string, alo: nat, ahi: nat, blo: nat, bhi: nat, best: Block, i: nat, j: nat)
    requires alo <= ahi <= |a| && blo <= bhi <= |b|
  {
    && BestShape(a, b, alo, ahi, blo, bhi, best, i, j)
    && BestLongest(a, b, alo, ahi, blo, bhi, best, i, j)
    && BestFirst(a, b, alo, ahi, blo, bhi, best, i, j)
  }

  /** A common block, scanned before (i, j), or the empty block at the origin. */
  predicate BestShape(a: string, b: string, alo: nat, ahi: nat, blo: nat, bhi: nat, best: Block, i: nat, j: nat)
    requires alo <= ahi <= |a| && blo <= bhi <= |b|
  {
    && IsBlock(a, b, alo, ahi, blo, bhi, best)
    && (best.k == 0 ==> best.i == alo && best.j == blo)
    && (best.k > 0 ==> Before(best.i, best.j, i, j))
  }

  /** No run scanned before (i, j) is longer. */
  predicate BestLongest(a: string, b: string, alo: nat, ahi: nat, blo: nat, bhi: nat, best: Block, i: nat, j: nat)
    requires alo <= ahi <= |a| && blo <= bhi <= |b|
  {
    forall i', j' :: alo <= i' < ahi && blo <= j' < bhi && Before(i', j', i, j) ==>
      RunLength(a, b, i', j', ahi, bhi) <= best.k
  }

  /** No run of the same length was scanned before it. */
  predicate BestFirst(a: string, b: string, alo: nat, ahi: nat, blo: nat, bhi: nat, best: Block, i: nat, j: nat)
    requires alo <= ahi <= |a| && blo <= bhi <= |b|
  {
    forall i', j' ::
      (alo <= i' < ahi && blo <= j' < bhi && Before(i', j', i, j)
       && RunLength(a, b, i', j', ahi, bhi) == best.k && best.k > 0) ==>
      !Before(i', j', best.i, best.j)
  }

  /** The best block after scanning one more start position: a strictly
      longer run replaces it, an equal one does not. */
  function Rescan(a: string, b: string, ahi: nat, bhi: nat, i: nat, j: nat, best: Block): Block
    requires i <= ahi <= |a| && j <= bhi <= |b|
  {
    var n := RunLength(a, b, i, j, ahi, bhi);
    if n > best.k then Block(i, j, n) else best
  }

  lemma ScanStepShape(a: string, b: string, alo: nat, ahi: nat, blo: nat, bhi: nat, i: nat, j: nat, best: Block)
    requires alo <= i < ahi <= |a| && blo <= j < bhi <= |b|
    requires BestShape(a, b, alo, ahi, blo, bhi, best, i, j)
    ensures BestShape(a, b, alo, ahi, blo, bhi, Rescan(a, b, ahi, bhi, i, j, best), i, j + 1)
  {
  }

  lemma ScanStepLongest(a: string, b: string, alo: nat, ahi: nat, blo: nat, bhi: nat, i: nat, j: nat, best: Block)
    requires alo <= i < ahi <= |a| && blo <= j < bhi <= |b|
    requires BestLongest(a, b, alo, ahi, blo, bhi, best, i, j)
    ensures BestLongest(a, b, alo, ahi, blo, bhi, Rescan(a, b, ahi, bhi, i, j, best), i, j + 1)
  {
    var nb := Rescan(a, b, ahi, bhi, i, j, best);
    forall i', j' | alo <= i' < ahi && blo <= j' < bhi && Before(i', j', i, j + 1)
      ensures RunLength(a, b, i', j', ahi, bhi) <= nb.k
    {
      if !Before(i', j', i, j) {
        assert i' == i && j' == j;
      }
    }
  }

  lemma ScanStepFirst(a: string, b: string, alo: nat, ahi: nat, blo: nat, bhi: nat, i: nat, j: nat, best: Block)
    requires alo <= i < ahi <= |a| && blo <= j < bhi <= |b|
    requires BestSoFar(a, b, alo, ahi, blo, bhi, best, i, j)
    ensures BestFirst(a, b, alo, ahi, blo, bhi, Rescan(a, b, ahi, bhi, i, j, best), i, j + 1)
  {
    var nb := Rescan(a, b, ahi, bhi, i, j, best);
    forall i', j' | (alo <= i' < ahi && blo <= j' < bhi && Before(i', j', i, j + 1)
        && RunLength(a, b, i', j', ahi, bhi) == nb.k && nb.k > 0)
      ensures !Before(i', j', nb.i, nb.j)
    {
      if !Before(i', j', i, j) {
        assert i' == i && j' == j;
      }
    }
  }

  /** Scanning one more start position keeps `BestSoFar`. */
  lemma ScanStep(a: string, b: string, alo: nat, ahi: nat, blo: nat, bhi: nat, i: nat, j: nat, best: Block)
    requires alo <= i < ahi <= |a| && blo <= j < bhi <= |b|
    requires BestSoFar(a, b, alo, ahi, blo, bhi, best, i, j)
    ensures BestSoFar(a, b, alo, ahi, blo, bhi, Rescan(a, b, ahi, bhi, i, j, best), i, j + 1)
  {
    ScanStepShape(a, b, alo, ahi, blo, bhi, i, j, best);
    ScanStepLongest(a, b, alo, ahi, blo, bhi, i, j, best);
    ScanStepFirst(a, b, alo, ahi, blo, bhi, i, j, best);
  }

  /** The end of a row is the start of the next one. */
  lemma RowEnd(a: string, b: string, alo: nat, ahi: nat, blo: nat, bhi: nat, i: nat, best: Block)
    requires alo <= i < ahi <= |a| && blo <= bhi <= |b|
    requires BestSoFar(a, b, alo, ahi, blo, bhi, best, i, bhi)
    ensures BestSoFar(a, b, alo, ahi, blo, bhi, best, i + 1, blo)
  {
    forall i', j' | alo <= i' < ahi && blo <= j' < bhi && Before(i', j', i + 1, blo)
      ensures Before(i', j', i, bhi)
    {
    }
    if best.k > 0 {
      assert best.j + best.k <= bhi;
    }
  }

  /** Scans the starts (i, j..bhi) of one row of the window. */
  function ScanRow(a: string, b: string, alo: nat, ahi: nat, blo: nat, bhi: nat, i: nat, j: nat, best: Block): (r: Block)
    requires alo <= i < ahi <= |a| && blo <= j <= bhi <= |b|
    requires BestSoFar(a, b, alo, ahi, blo, bhi, best, i, j)
    ensures BestSoFar(a, b, alo, ahi, blo, bhi, r, i + 1, blo)
    decreases bhi - j
  {
    if j == bhi then
      RowEnd(a, b, alo, ahi, blo, bhi, i, best);
      best
    else
      ScanStep(a, b, alo, ahi, blo, bhi, i, j, best);
      ScanRow(a, b, alo, ahi, blo, bhi, i, j + 1, Rescan(a, b, ahi, bhi, i, j, best))
  }

  /** Scans the rows i..ahi of the window. */
  function ScanRows(a: string, b: string, alo: nat, ahi: nat, blo: nat, bhi: nat, i: nat, best: Block): (r: Block)
    requires alo <= i <= ahi <= |a| && blo <= bhi <= |b|
    requires BestSoFar(a, b, alo, ahi, blo, bhi, best, i, blo)
    ensures BestSoFar(a, b, alo, ahi, blo, bhi, r, ahi, blo)
    decreases ahi - i
  {
    if i == ahi then best
    else ScanRows(a, b, alo, ahi, blo, bhi, i + 1, ScanRow(a, b, alo, ahi, blo, bhi, i, blo, best))
  }

  /** difflib's `find_longest_match(alo, ahi, blo, bhi)` without junk: the
      longest common block of the window; among the longest, the one that
      starts first in `a` and then first in `b`; `(alo, blo, 0)` if none. */
  function LongestMatch(a: string, b: string, alo: nat, ahi: nat, blo: nat, bhi: nat): (r: Block)
    requires alo <= ahi <= |a| && blo <= bhi <= |b|
    ensures IsBlock(a, b, alo, ahi, blo, bhi, r)
    ensures r.k == 0 ==> r.i == alo && r.j == blo
    ensures r.k > 0 ==> a[r.i] == b[r.j]
    ensures forall i', j' :: alo <= i' < ahi && blo <= j' < bhi ==> RunLength(a, b, i', j', ahi, bhi) <= r.k
    ensures forall i', j' :: alo <= i' < ahi && blo <= j' < bhi && RunLength(a, b, i', j', ahi, bhi) == r.k && r.k > 0 ==>
      !Before(i', j', r.i, r.j)
  {
    var r := ScanRows(a, b, alo, ahi, blo, bhi, alo, Block(alo, blo, 0));
    assert r.k > 0 ==> a[r.i] == a[r.i..r.i + r.k][0];
    assert r.k > 0 ==> b[r.j] == b[r.j..r.j + r.k][0];
    r
  }

  /** The total size `M` of difflib's `get_matching_blocks()` for a window. */
  function MatchedChars(a: string, b: string, alo: nat, ahi: nat, blo: nat, bhi: nat): (m: nat)
    requires alo <= ahi <= |a| && blo <= bhi <= |b|
    ensures m <= ahi - alo && m <= bhi - blo
    decreases (ahi - alo) + (bhi - blo)
  {
    var x := LongestMatch(a, b, alo, ahi, blo, bhi);
    if x.k == 0 then 0
    else
      x.k + MatchedChars(a, b, alo, x.i, blo, x.j)
          + MatchedChars(a, b, x.i + x.k, ahi, x.j + x.k, bhi)
  }

  /** A quotient of a count by a larger positive count lies in [0, 1]. */
  lemma FractionBounds(n: nat, t: nat)
    requires 0 < t && n <= t
    ensures 0.0 <= n as real / t as real <= 1.0
  {
    var q := n as real / t as real;
    assert q * t as real == n as real;
  }

  /** `SequenceMatcher(None, a, b).ratio()`: `2*M/T`, and 1 when both are empty. */
  function Ratio(a: string, b: string): (r: real)
    ensures 0.0 <= r <= 1.0
  {
    var t := |a| + |b|;
    if t == 0 then 1.0
    else
      var m := MatchedChars(a, b, 0, |a|, 0, |b|);
      FractionBounds(2 * m, t);
      (2 * m) as real / t as real
  }

  /** A string is fully similar to itself. */
  lemma RatioSelf(a: string)
    ensures Ratio(a, a) == 1.0
  {
    if |a| > 0 {
      var x := LongestMatch(a, a, 0, |a|, 0, |a|);
      BlockWithinRun(a, a, 0, 0, |a|, |a|, |a|);
      assert x.k == |a| && x.i == 0 && x.j == 0;
      var m := MatchedChars(a, a, 0, |a|, 0, |a|);
      assert m == |a|;
      assert (2 * m) as real == (|a| + |a|) as real;
    }
  }

  /** A candidate that extends the stored title `a` by `s` matches all of
      `a`, so its ratio against `a` shrinks only in proportion to `s`. The
      candidate is the first argument, as in the similarity check. */
  lemma RatioExtension(a: string, s: string)
    requires |a| + |s| > 0
    ensures Ratio(a + s, a) >= (2 * |a|) as real / (2 * |a| + |s|) as real
  {
    var c := a + s;
    assert c[0..|a|] == a[0..|a|];
    BlockWithinRun(c, a, 0, 0, |a|, |c|, |a|);
    var x := LongestMatch(c, a, 0, |c|, 0, |a|);
    if |a| > 0 {
      assert x.k >= |a|;
    }
    var m := MatchedChars(c, a, 0, |c|, 0, |a|);
    assert m >= |a|;
    var t := (2 * |a| + |s|) as real;
    assert (2 * m) as real >= (2 * |a|) as real;
    assert (2 * m) as real / t >= (2 * |a|) as real / t;
  }

  /** The share `2n/(2n+m)` of an extension by at most half the length
      reaches 0.8. */
  lemma ExtensionShare(n: nat, m: nat)
    requires n > 0 && 2 * m <= n
    ensures (2 * n) as real / (2 * n + m) as real >= 0.8
  {
    var d := (2 * n + m) as real;
    assert 0.8 * d <= (2 * n) as real;
    DivAtLeast((2 * n) as real, d, 0.8);
  }

  /** A quotient is at least `c` when the numerator is at least `c` times
      the positive denominator. */
  lemma DivAtLeast(x: real, d: real, c: real)
    requires d > 0.0 && c * d <= x
    ensures x / d >= c
  {
    var q := x / d;
    assert q * d == x;
    if q < c {
      MulPositive(c - q, d);
    }
  }

  /** The product of two positive reals is positive. */
  lemma MulPositive(a: real, b: real)
    requires a > 0.0 && b > 0.0
    ensures a * b > 0.0
  {
  }

  /** Titles with no character in common have ratio 0. */
  lemma RatioDisjoint(a: string, b: string)
    requires |a| + |b| > 0
    requires forall i, j :: 0 <= i < |a| && 0 <= j < |b| ==> a[i] != b[j]
    ensures Ratio(a, b) == 0.0
  {
    var x := LongestMatch(a, b, 0, |a|, 0, |b|);
    assert x.k == 0;
  }
}

=== FILE: strings.dfy ===
/** The few operations on Python `str` that the application relies on:
    prefix and substring tests, `lower`, `strip`, `split` and `join`.
    Strings are sequences of Unicode scalar values, as Python's are. */
module Strings {

  /** `s.startswith(p)` */
  predicate StartsWith(s: string, p: string) {
    |p| <= |s| && s[..|p|] == p
  }

  /** A prefix of `p` is a prefix of every extension of `p`. */
  lemma StartsWithConcat(p: string, t: string, q: string)
    requires StartsWith(p, q)
    ensures StartsWith(p + t, q)
  {
    assert (p + t)[..|q|] == p[..|q|];
  }

  /** `needle in hay`: the empty string is contained in every string. */
  predicate Contains(hay: string, needle: string)
    decreases |hay|
  {
    StartsWith(hay, needle) || (|hay| > 0 && Contains(hay[1..], needle))
  }

  /** Characterises `Contains` by an occurrence position. */
  lemma {:induction false} ContainsAt(hay: string, needle: string, i: nat)
    requires i + |needle| <= |hay| && hay[i..i + |needle|] == needle
    ensures Contains(hay, needle)
    decreases i
  {
    if i > 0 {
      assert hay[1..][i - 1..i - 1 + |needle|] == hay[i..i + |needle|];
      ContainsAt(hay[1..], needle, i - 1);
    }
  }

  /** Every string contains itself. */
  lemma ContainsSelf(s: string)
    ensures Contains(s, s)
  {
    assert StartsWith(s, s);
  }

  /** A witness for `Contains`: the needle occurs at some position. */
  lemma {:induction false} ContainsWitness(hay: string, needle: string) returns (i: nat)
    requires Contains(hay, needle)
    ensures i + |needle| <= |hay| && hay[i..i + |needle|] == needle
    decreases |hay|
  {
    if StartsWith(hay, needle) {
      i := 0;
    } else {
      var j := ContainsWitness(hay[1..], needle);
      i := j + 1;
      assert hay[i..i + |needle|] == hay[1..][j..j + |needle|];
    }
  }

  /** Python `str.lower`, restricted to the ASCII letters (see README). */
  function LowerChar(c: char): (r: char)
    ensures 'A' <= c <= 'Z' ==> r as int == c as int + 32
    ensures !('A' <= c <= 'Z') ==> r == c
  {
    if 'A' <= c <= 'Z' then (c as int + 32) as char else c
  }

  function Lower(s: string): (r: string)
    ensures |r| == |s|
    ensures forall i :: 0 <= i < |s| ==> r[i] == LowerChar(s[i])
  {
    if |s| == 0 then [] else [LowerChar(s[0])] + Lower(s[1..])
  }

  /** Lower-casing twice is lower-casing once. */
  lemma LowerIdempotent(s: string)
    ensures Lower(Lower(s)) == Lower(s)
  {
  }

  /** Python's `str.isspace` for one character: the Unicode White_Space
      characters plus the ASCII information separators. */
  predicate IsSpace(c: char) {
    || c == ' ' || ('\t' <= c <= '\r') || ('\U{1c}' <= c <= '\U{1f}')
    || c == '\U{85}' || c == '\U{a0}' || c == '\U{1680}'
    || ('\U{2000}' <= c <= '\U{200a}') || c == '\U{2028}' || c == '\U{2029}'
    || c == '\U{202f}' || c == '\U{205f}' || c == '\U{3000}'
  }

  function StripLeft(s: string): (r: string)
    ensures |r| <= |s| && r == s[|s| - |r|..]
    ensures forall i :: 0 <= i < |s| - |r| ==> IsSpace(s[i])
    ensures |r| > 0 ==> !IsSpace(r[0])
  {
    if |s| > 0 && IsSpace(s[0]) then StripLeft(s[1..]) else s
  }

  function StripRight(s: string): (r: string)
    ensures |r| <= |s| && r == s[..|r|]
    ensures forall i :: |r| <= i < |s| ==> IsSpace(s[i])
    ensures |r| > 0 ==> !IsSpace(r[|r| - 1])
  {
    if |s| > 0 && IsSpace(s[|s| - 1]) then StripRight(s[..|s| - 1]) else s
  }

  /** The number of leading whitespace characters of `s`. */
  function LeadingSpaces(s: string): (n: nat)
    ensures n <= |s|
  {
    |s| - |StripLeft(s)|
  }

  /** `s.strip()`: the slice of `s` that remains once leading and trailing
      whitespace is removed; it neither starts nor ends with whitespace. */
  function Strip(s: string): (r: string)
    ensures |r| > 0 ==> !IsSpace(r[0]) && !IsSpace(r[|r| - 1])
    ensures LeadingSpaces(s) + |r| <= |s|
    ensures r == s[LeadingSpaces(s)..LeadingSpaces(s) + |r|]
    ensures forall i :: 0 <= i < LeadingSpaces(s) ==> IsSpace(s[i])
    ensures forall i :: LeadingSpaces(s) + |r| <= i < |s| ==> IsSpace(s[i])
  {
    var l := StripLeft(s);
    var r := StripRight(l);
    assert forall i :: |r| <= i < |l| ==> l[i] == s[|s| - |l| + i];
    r
  }

  /** Stripping is idempotent. */
  lemma StripIdempotent(s: string)
    ensures Strip(Strip(s)) == Strip(s)
  {
    var t := Strip(s);
    if |t| > 0 {
      assert StripLeft(t) == t;
      assert StripRight(t) == t;
    }
  }

  /** The index of the first `c` in `s`, or `|s|` when there is none. */
  function IndexOf(s: string, c: char): (i: nat)
    ensures i <= |s|
    ensures i < |s| ==> s[i] == c
    ensures c !in s[..i]
  {
    if |s| == 0 then 0
    else if s[0] == c then 0
    else
      var j := IndexOf(s[1..], c);
      assert s[..j + 1] == [s[0]] + s[1..][..j];
      j + 1
  }

  /** `s.split(sep)` for a one-character separator. */
  function Split(s: string, sep: char): (r: seq<string>)
    ensures |r| >= 1
    ensures forall i :: 0 <= i < |r| ==> sep !in r[i]
    decreases |s|
  {
    var i := IndexOf(s, sep);
    if i == |s| then [s] else [s[..i]] + Split(s[i + 1..], sep)
  }

  /** `sep.join(parts)` */
  function Join(parts: seq<string>, sep: string): (r: string)
    ensures |parts| == 1 ==> r == parts[0]
  {
    if |parts| == 0 then ""
    else if |parts| == 1 then parts[0]
    else parts[0] + sep + Join(parts[1..], sep)
  }

  /** Splitting and joining with the same separator restore the string. */
  lemma {:induction false} JoinSplit(s: string, sep: char)
    ensures Join(Split(s, sep), [sep]) == s
    decreases |s|
  {
    var i := IndexOf(s, sep);
    if i < |s| {
      var rest := s[i + 1..];
      JoinSplit(rest, sep);
      var parts := Split(rest, sep);
      assert Split(s, sep) == [s[..i]] + parts;
      JoinCons(s[..i], parts, [sep]);
      AroundIndex(s, i);
    } else {
      assert s[..i] == s;
    }
  }

  /** A string is what lies before an index, the character there, and what follows. */
  lemma AroundIndex(s: string, i: nat)
    requires i < |s|
    ensures s == s[..i] + [s[i]] + s[i + 1..]
  {
  }

  /** Joining a non-empty tail after a head puts one separator between them. */
  lemma JoinCons(p: string, parts: seq<string>, sep: string)
    requires |parts| >= 1
    ensures Join([p] + parts, sep) == p + sep + Join(parts, sep)
  {
    assert ([p] + parts)[1..] == parts;
  }

  /** Replaces every occurrence of `a` by `b`. */
  function Replace(s: string, a: char, b: char): (r: string)
    ensures |r| == |s|
    ensures forall i :: 0 <= i < |s| ==> r[i] == (if s[i] == a then b else s[i])
  {
    if |s| == 0 then [] else [if s[0] == a then b else s[0]] + Replace(s[1..], a, b)
  }
}

=== FILE: url.dfy ===
/** URL canonicalisation of the scraper (`convert_to_direct_news_url`):
    redirect-style links `.../news_read.naver?article_id=A&office_id=O`
    become direct article links `https://n.news.naver.com/mnews/article/O/A`.
    `urlparse` and `parse_qs` are modelled as the string splits they perform. */
module Url {
  import opened Wrappers
  import opened Strings

  const RedirectMarker := "news_read.naver"
  const DirectArticlePrefix := "https://n.news.naver.com/mnews/article/"

  /** The article link the canonicaliser builds for an office and an article id. */
  function DirectArticleUrl(office: string, article: string): string {
    DirectArticlePrefix + office + "/" + article
  }

  /** Direct article links are absolute http(s) links. */
  lemma DirectUrlIsHttp(office: string, article: string)
    ensures StartsWith(DirectArticleUrl(office, article), "http")
  {
    var p := DirectArticlePrefix;
    assert p[0] == 'h' && p[1] == 't' && p[2] == 't' && p[3] == 'p';
    assert p[..4] == "http";
    StartsWithConcat(p, office + "/" + article, "http");
    assert DirectArticleUrl(office, article) == p + (office + "/" + article);
  }

  /** The index of the first character of `s` that belongs to `cs`, or `|s|`. */
  function IndexOfAny(s: string, cs: set<char>): (i: nat)
    ensures i <= |s|
    ensures i < |s| ==> s[i] in cs
    ensures forall j :: 0 <= j < i ==> s[j] !in cs
  {
    if |s| == 0 || s[0] in cs then 0 else IndexOfAny(s[1..], cs) + 1
  }

  predicate IsAsciiLetter(c: char) {
    ('a' <= c <= 'z') || ('A' <= c <= 'Z')
  }

  /** Characters `urlsplit` accepts in a scheme. */
  predicate IsSchemeChar(c: char) {
    IsAsciiLetter(c) || ('0' <= c <= '9') || c == '+' || c == '-' || c == '.'
  }

  /** What is left of `url` once `urlsplit` has taken off the scheme: the
      text before the first ':' is a scheme when it is non-empty, starts with
      an ASCII letter and consists of scheme characters only. */
  function DropScheme(url: string): (r: string)
    ensures |r| <= |url| && r == url[|url| - |r|..]
  {
    var i := IndexOf(url, ':');
    if 0 < i < |url| && IsAsciiLetter(url[0]) && forall k :: 0 <= k < i ==> IsSchemeChar(url[k])
    then url[i + 1..]
    else url
  }

  /** What is left once the network location (text after a leading "//" up
      to the first '/', '?' or '#') is taken off. */
  function DropNetloc(rest: string): (r: string)
    ensures |r| <= |rest| && r == rest[|rest| - |r|..]
  {
    if StartsWith(rest, "//") then
      var tail := rest[2..];
      tail[IndexOfAny(tail, {'/', '?', '#'})..]
    else rest
  }

  /** Path and query of a URL, as `urlparse` splits them (the fragment is cut
      at the first '#', then the query at the first '?'). */
  datatype UrlParts = UrlParts(path: string, query: string)

  function SplitUrl(url: string): (r: UrlParts)
    ensures |r.path| + |r.query| <= |url|
    ensures forall c :: c in r.query ==> c in url && c != '#'
    ensures forall c :: c in r.path ==> c in url
  {
    var rest := DropNetloc(DropScheme(url));
    var noFragment := rest[..IndexOf(rest, '#')];
    var q := IndexOf(noFragment, '?');
    var parts := UrlParts(noFragment[..q], if q < |noFragment| then noFragment[q + 1..] else "");
    assert forall c :: c in parts.query ==> c in noFragment;
    assert forall c :: c in noFragment ==> c in rest;
    assert forall c :: c in rest ==> c in url;
    parts
  }

  /** One `name=value` pair of a query string. */
  datatype Param = Param(name: string, value: string)

  /** `parse_qsl` on one '&'-separated piece: empty pieces, pieces without
      '=' and pieces with an empty value are dropped; '+' reads as a space. */
  function ParsePiece(piece: string): (r: Option<Param>)
    ensures r.Some? ==> r.value.value != [] && '+' !in r.value.value && '+' !in r.value.name
    ensures r.Some? ==> forall c :: c in r.value.value ==> c in piece || c == ' '
  {
    var i := IndexOf(piece, '=');
    if i == |piece| || i + 1 == |piece| then None
    else Some(Param(Replace(piece[..i], '+', ' '), Replace(piece[i + 1..], '+', ' ')))
  }

  /** `parse_qsl(query)`: the non-blank pairs, in order. */
  function ParseQuery(query: string): (r: seq<Param>)
    ensures forall p :: p in r ==> p.value != [] && '&' !in p.value
    ensures '&' !in query ==> |r| <= 1
  {
    ParsePieces(Split(query, '&'))
  }

  function ParsePieces(pieces: seq<string>): (r: seq<Param>)
    requires forall i :: 0 <= i < |pieces| ==> '&' !in pieces[i]
    ensures |r| <= |pieces|
    ensures forall p :: p in r ==> p.value != [] && '&' !in p.value
  {
    if |pieces| == 0 then []
    else
      var rest := ParsePieces(pieces[1..]);
      match ParsePiece(pieces[0])
      case Some(p) => [p] + rest
      case None => rest
  }

  /** `parse_qs(query).get(name, [None])[0]`: the first non-blank value. */
  function Lookup(params: seq<Param>, name: string): (r: Option<string>)
    ensures r.Some? ==> Param(name, r.value) in params
    ensures r.None? ==> forall p :: p in params ==> p.name != name
  {
    if |params| == 0 then None
    else if params[0].name == name then Some(params[0].value)
    else Lookup(params[1..], name)
  }

  /** True when the path of `url` names the redirect page. */
  predicate IsRedirectLink(url: string) {
    Contains(SplitUrl(url).path, RedirectMarker)
  }

  /** The parsed query of `url`. */
  function QueryOf(url: string): (r: seq<Param>)
    ensures '&' !in url ==> |r| <= 1
    ensures forall p :: p in r ==> p.value != [] && '&' !in p.value
  {
    ParseQuery(SplitUrl(url).query)
  }

  /** `convert_to_direct_news_url`. */
  function Canonicalize(url: string): (r: string)
    ensures !IsRedirectLink(url) ==> r == url
    ensures r != url ==>
      && IsRedirectLink(url)
      && Lookup(QueryOf(url), "article_id").Some?
      && Lookup(QueryOf(url), "office_id").Some?
      && r == DirectArticleUrl(Lookup(QueryOf(url), "office_id").value, Lookup(QueryOf(url), "article_id").value)
  {
    if !IsRedirectLink(url) then url
    else
      var params := QueryOf(url);
      var article := Lookup(params, "article_id");
      var office := Lookup(params, "office_id");
      if article.Some? && office.Some? && article.value != [] && office.value != []
      then DirectArticleUrl(office.value, article.value)
      else url
  }

  /** When the path names the redirect page and both ids are present, the
      result is exactly the direct link built from the first occurrences. */
  lemma CanonicalizeRedirect(url: string)
    requires IsRedirectLink(url)
    requires Lookup(QueryOf(url), "article_id").Some?
    requires Lookup(QueryOf(url), "office_id").Some?
    ensures Canonicalize(url) == DirectArticleUrl(
      Lookup(QueryOf(url), "office_id").value,
      Lookup(QueryOf(url), "article_id").value)
  {
    var params := QueryOf(url);
    assert Param("article_id", Lookup(params, "article_id").value) in params;
    assert Param("office_id", Lookup(params, "office_id").value) in params;
  }

  /** A link without '&' carries at most one query parameter, so it can never
      name both ids and is returned unchanged. */
  lemma NoAmpersandUnchanged(url: string)
    requires '&' !in url
    ensures Canonicalize(url) == url
  {
    var params := QueryOf(url);
    var article := Lookup(params, "article_id");
    if article.Some? {
      assert Param("article_id", article.value) in params;
    }
  }

  /** A direct link built from ids without '&' has no '&' either. */
  lemma DirectUrlNoAmpersand(office: string, article: string)
    requires '&' !in office && '&' !in article
    ensures '&' !in DirectArticleUrl(office, article)
  {
    var r := DirectArticleUrl(office, article);
    forall i | 0 <= i < |r|
      ensures r[i] != '&'
    {
      if i < |DirectArticlePrefix| {
        assert r[i] == DirectArticlePrefix[i];
      } else if i < |DirectArticlePrefix| + |office| {
        assert r[i] == office[i - |DirectArticlePrefix|];
      } else if i > |DirectArticlePrefix| + |office| {
        assert r[i] == article[i - |DirectArticlePrefix| - |office| - 1];
      }
    }
  }

  /** Canonicalisation is idempotent: direct links are fixed points. */
  lemma CanonicalizeIdempotent(url: string)
    ensures Canonicalize(Canonicalize(url)) == Canonicalize(url)
  {
    var r := Canonicalize(url);
    if r != url {
      var params := QueryOf(url);
      var o := Lookup(params, "office_id").value;
      var a := Lookup(params, "article_id").value;
      assert Param("office_id", o) in params && Param("article_id", a) in params;
      DirectUrlNoAmpersand(o, a);
      NoAmpersandUnchanged(r);
    }
  }

  /** The empty link stays empty. */
  lemma CanonicalizeEmpty()
    ensures Canonicalize("") == ""
  {
    NoAmpersandUnchanged("");
  }
}

=== FILE: wrappers.dfy ===
/** Failure-compatible wrappers used across the model: an optional value
    (Python's `None`) and a success-or-error result (a raised exception). */
module Wrappers {

  datatype Option<+T> = None | Some(value: T) {

    function GetOr(default: T): T {
      match this
      case Some(v) => v
      case None => default
    }
  }

  datatype Result<+R, +E> = Success(value: R) | Failure(error: E) {

    predicate IsFailure() {
      Failure?
    }

    function PropagateFailure<U>(): Result<U, E>
      requires Failure?
    {
      Failure(error)
    }

    function Extract(): R
      requires Success?
    {
      value
    }
  }
}
